=== FILE: README.md ===
# StegoShield LSB steganography, modelled in Dafny

StegoShield hides a secret in the least significant bits (LSBs) of an RGB
carrier image. Pixels are read in row-major order. Each pixel gives three
channel LSBs, in R, G, B order. Three generations of the codec exist, and all
three are modelled here:

- **fullStack backend** (`StegoShield_fullStack/backend/steganography.py`). This
  is the authoritative, length-prefixed codec. A frame is a 32-bit payload
  length, then the payload. A payload is a type bit (`0` for text, `1` for an
  image) and then one of two bodies:
  - the 8-bit codes of the base64 text;
  - a 16-bit header length, the header `"<w>x<h>"`, and 24 bits per secret
    pixel.
- **Desktop tool** (`StegoShield_Desktop/steganography.py`). This is the legacy
  codec. The base64 text or the raw pixel dump is followed by the 16-bit end
  marker `1111111111111110`. The reader scans the LSB stream until the marker
  has just been read.
- **first web app** (`StegoShield_Webapp/steganography.py`). It uses the same
  marker framing on the raw 8-bit character codes, with no base64.

## How the model is organised

Images are `seq<Pixel>`, where a `Pixel` is a triple of `Byte`s. Bit strings are
`seq<bool>`, most significant bit first. Every operation is a pure function
from the carrier's pixels to the new pixels, or to the decoded result. Python
exceptions become `Result`/`Option` error values, and the error kinds are kept
apart:

- `TooLarge`, `NotEncoded`, `Incomplete`, `NotText`, `NotImage`, `BadBase64`,
  `CorruptHeader` and `MissingPixels` for the fullStack codec;
- `SecretTooLarge`, `OutOfPixels` (StopIteration) and `EmptyChannelSlice`
  (`int('', 2)`) for the desktop tool, and `MarkerInSecret` for its corrected
  image encoder.

The modules are:

- `Results`: `Option`, `Result`.
- `Binary`: `format(n, '0<w>b')`, including its widening for `n >= 2^w`;
  `int(bits, 2)`; `_str_to_binary`; grouping bits back into characters.
- `Raster`: pixels, channels, the LSB stamp `v & ~1 | bit`, the LSB stream and
  the 24-bit pixel dump.
- `LsbCodec`: the fullStack `_embed_data` and `_extract_bits`, plus a corrected
  in-place embedding.
- `Base64`: section 4 of RFC 4648 with the standard alphabet and `=` padding.
  The encoder is total and the decoder is strict. The round trip is proved.
- `Decimal`: `f"{n}"`, `int(s)` on ASCII digit strings, and `str.split`.
- `FullStack`: `encode_message`, `decode_message`, `encode_image`,
  `decode_image`.
- `Sentinel`: the legacy embedding loop, the bit-by-bit marker scan
  (`ScanForMarker` is the loop; `FirstMarker` is its specification), and the
  8-bit regrouping before the marker.
- `Desktop`: the four desktop operations, each as written and, where the code
  is wrong, corrected.
- `Webapp`: the two web-app operations.

The central properties are these:

- Each codec's decoder inverts its encoder:
  - the fullStack text and image round trips;
  - the desktop message round trip;
  - the desktop image round trip, for the corrected encoder and decoder;
  - the web-app round trip for text in which the marker cannot appear early.
- The desktop and web-app embeddings and the corrected `EmbedInPlace` change
  at most the LSB of each channel. `_embed_data` as written changes only LSBs
  in the pixels it visits, but it shifts the pixels after them (Findings).
- Capacity errors happen exactly when the frame does not fit.
- These decoder errors are each stated as an if-and-only-if:
  - fullStack: `NotEncoded`, `Incomplete`, `NotText`, `NotImage`,
    `CorruptHeader` and `MissingPixels`;
  - desktop: the "no hidden message" notice, and `EmptyChannelSlice`
    (`Desktop.DecodeImageFails`).

  `BadBase64` and the desktop "decoding failed" notice are characterised only
  as the strict decoder's refusal. No closed condition on the carrier is given
  for them.
- Four defects of the code are recorded under Findings.

Where the code's own comments or control flow state an intent that the code
does not meet, the code is modelled as written, and the intent is modelled as
a corrected member beside it:

- The comment "Append the rest of the original pixels" at
  `StegoShield_fullStack/backend/steganography.py:27` says that pixels after
  the embedding region keep their values. `_embed_data` appends the whole
  image again from its first pixel, so those pixels shift.
- The `break` at `StegoShield_Desktop/steganography.py:70` is evidently meant
  to stop the desktop `decode_image` at the marker. It leaves only the
  channel loop, and the scan goes on to the last pixel.
- The desktop image encoder writes the raw pixel dump with no escaping, so a
  dump that itself spells the marker ends the scan early.

## Model

| member | source | states |
|---|---|---|
| Binary.Format | StegoShield_fullStack/backend/steganography.py:54 | `format(n, '0<w>b')` reads back as `n`, has at least `w` digits, has exactly `w` digits iff `n < 2^w`, and a wider result starts with a 1 |
| Binary.FromBits | StegoShield_fullStack/backend/steganography.py:67 | `int(bits, 2)` is below `2^len(bits)`; `Binary.FromToBits` and `Binary.ToFromBits` make it the inverse of the fixed-width `format` |
| Binary.FromToBits | StegoShield_fullStack/backend/steganography.py:67 | `int(bits, 2)` of the `w` low bits of any `n < 2^w` is `n` |
| Binary.ToFromBits | StegoShield_fullStack/backend/steganography.py:67 | writing `int(bits, 2)` back in `len(bits)` digits gives the bits again |
| Binary.StrToBinary | StegoShield_fullStack/backend/steganography.py:4-6 | at least 8 bits per character, exactly 8 when every code is below 256 |
| Binary.BitsToStr | StegoShield_fullStack/backend/steganography.py:83-84 | one character per started 8-bit group, every code below 256 |
| Binary.StrBinaryRoundTrip | StegoShield_fullStack/backend/steganography.py:83-84 | regrouping the bits of a Latin-1 string by 8 gives the string back (inverse of `_str_to_binary`) |
| Binary.StrToBinaryAppend | StegoShield_fullStack/backend/steganography.py:6 | the encoding of a concatenation is the concatenation of the encodings |
| Binary.AsciiHighBitsClear | StegoShield_Desktop/steganography.py:8 | ASCII text encodes to bytes whose first bit is 0 |
| Binary.FormatFromBits8 | StegoShield_fullStack/backend/steganography.py:156-158 | any 8 bits read with `int(_, 2)` and written back with `'08b'` are unchanged |
| Raster.SetLsb | StegoShield_fullStack/backend/steganography.py:20 | `v & ~1 \| bit` has LSB `bit` and the same upper seven bits as `v` |
| Raster.Stamp | StegoShield_Desktop/steganography.py:14-16 | channel `j` takes frame bit `i + j` while it exists; the upper bits and the channels past the frame's end are kept |
| Raster.LsbOnlyWithinOne | StegoShield_fullStack/backend/steganography.py:20 | a pixel changed only in its LSBs moves each channel by at most 1 |
| Raster.LsbStreamAt | StegoShield_fullStack/backend/steganography.py:38-40 | bit `3i + c` of the stream is the LSB of channel `c` of pixel `i` |
| Raster.LsbStreamIndex | StegoShield_fullStack/backend/steganography.py:38-40 | every stream bit `k` is the LSB of channel `k % 3` of pixel `k / 3` |
| Raster.LsbStreamAppend | StegoShield_fullStack/backend/steganography.py:38-40 | the stream of joined pixel runs is the joined streams |
| Raster.LsbStream | StegoShield_fullStack/backend/steganography.py:38-40 | the LSB reading loop, shared with the desktop and web-app decoders: three bits per pixel; `Raster.LsbStreamAt` places bit `3i + c` at the LSB of channel `c` of pixel `i` |
| Raster.PixelBits | StegoShield_Desktop/steganography.py:48 | 24 bits per pixel; `Raster.ReadPixelByteBits` and `FullStack.PixelBitsOfRead` read each 24-bit group back as its pixel |
| Raster.StampedCarries | StegoShield_Desktop/steganography.py:12-17 | when the first pixels are the stamped carrier pixels, the stream opens with the frame |
| Raster.ReadPixel | StegoShield_fullStack/backend/steganography.py:155-158 | the pixel read from 24 bits dumps back to those 24 bits |
| Raster.ReadPixelByteBits | StegoShield_fullStack/backend/steganography.py:155-158 | a pixel's `'{r:08b}{g:08b}{b:08b}'` reads back as that pixel, whatever follows |
| Raster.PixelBitsAppend | StegoShield_fullStack/backend/steganography.py:98 | the pixel dump of joined runs is the joined dumps |
| Raster.DarkHighBitsClear | StegoShield_Desktop/steganography.py:48 | a dump of pixels with every channel below 128 has a 0 at the start of every byte |
| LsbCodec.Walk | StegoShield_fullStack/backend/steganography.py:15-25 | below full capacity the loop visits `len / 3 + 1` pixels, the last being the one on which the bit iterator runs dry (`Visited`); at full capacity it visits all of them; each visited pixel is stamped with its three frame bits |
| LsbCodec.EmbedData | StegoShield_fullStack/backend/steganography.py:8-33 | fails iff the frame exceeds 3 bits per pixel; otherwise keeps the size, carries the frame, changes only LSBs of the visited pixels, and then repeats the original pixels from the start |
| LsbCodec.ExtractBits | StegoShield_fullStack/backend/steganography.py:35-43 | returns the first `n` stream bits, or all of them when `n` is out of range (0, negative or too large) |
| LsbCodec.ExtractBitsLoop | StegoShield_fullStack/backend/steganography.py:35-43 | the nested loop with its early return computes `ExtractBits` |
| LsbCodec.ExtractCarried | StegoShield_fullStack/backend/steganography.py:35-43 | extracting a carried frame's length gives the frame |
| LsbCodec.EmbedExtractRoundTrip | StegoShield_fullStack/backend/steganography.py:8-43 | every frame that fits is extracted back exactly |
| LsbCodec.FullCapacityNoShift | StegoShield_fullStack/backend/steganography.py:21-30 | a frame of exactly 3 bits per pixel stamps every pixel and shifts nothing |
| LsbCodec.EmbedShiftsTail | StegoShield_fullStack/backend/steganography.py:27-30 | as written, a pixel past the frame is overwritten by a copy of an earlier original pixel |
| LsbCodec.EmbedInPlace | StegoShield_fullStack/backend/steganography.py:8-33 | corrected embedding: the same error condition, carries the frame, changes only LSBs, and leaves every pixel past the frame unchanged |
| LsbCodec.InPlaceAgreesOnFrame | StegoShield_fullStack/backend/steganography.py:15-25 | both embeddings agree on the pixels that hold the frame |
| Base64.Encode | StegoShield_fullStack/backend/steganography.py:50 | 4 ASCII characters per started 3-byte group |
| Base64.Decode | StegoShield_fullStack/backend/steganography.py:86 | succeeds only on whole 4-character groups, and yields at most 3 and at least 1 byte per group |
| Base64.DecodeEncode | StegoShield_fullStack/backend/steganography.py:86 | decoding inverts encoding for every byte sequence |
| Decimal.Show | StegoShield_fullStack/backend/steganography.py:95 | `f"{n}"` is a non-empty digit string |
| Decimal.Parse | StegoShield_fullStack/backend/steganography.py:143 | `int(s)` succeeds iff `s` is a non-empty digit string |
| Decimal.ParseShow | StegoShield_fullStack/backend/steganography.py:143 | `int(f"{n}") == n` |
| Decimal.Split | StegoShield_fullStack/backend/steganography.py:142 | at least one piece, no piece contains the separator, and joining the pieces with the separator gives the string back (`Decimal.Join`) |
| Decimal.SplitInTwo | StegoShield_fullStack/backend/steganography.py:142-143 | the split has two pieces iff the separator occurs exactly once, and then the pieces are the text before and after it |
| Decimal.SplitJoin | StegoShield_fullStack/backend/steganography.py:142 | `(a + "x" + b).split("x") == [a, b]` when neither part contains `x` |
| FullStack.Frame | StegoShield_fullStack/backend/steganography.py:53-55 | for payloads below 2^32 bits, the first 32 bits read back as the payload length and the rest is the payload |
| FullStack.EncodeMessage | StegoShield_fullStack/backend/steganography.py:45-57 | `TooLarge` iff the text frame exceeds the capacity; otherwise the same size, carrying the frame |
| FullStack.TextPayload | StegoShield_fullStack/backend/steganography.py:50-51 | type bit 0, then the 8-bit codes of the base64 text, which regroup to that text |
| FullStack.TextFrameLayout | StegoShield_fullStack/backend/steganography.py:49-55 | declared length `1 + 8 * len(base64)`, type bit 0, and the base64 text regrouped from the rest |
| FullStack.ReadPayload | StegoShield_fullStack/backend/steganography.py:63-76 | `NotEncoded` iff fewer than 32 channels; `Incomplete` iff fewer than `32 + declared`; otherwise exactly the declared payload bits |
| FullStack.DecodeMessage | StegoShield_fullStack/backend/steganography.py:59-86 | `NotEncoded`, `Incomplete` and `NotText` each exactly (`NotText` iff the payload is empty or starts with 1); `BadBase64` only as the strict decoder's refusal |
| FullStack.ReadFramedPayload | StegoShield_fullStack/backend/steganography.py:63-76 | any buffer carrying a frame yields that frame's payload |
| FullStack.DecodeCarriedMessage | StegoShield_fullStack/backend/steganography.py:59-86 | any buffer carrying a message's frame decodes to that message |
| FullStack.MessageRoundTrip | StegoShield_fullStack/backend/steganography.py:45-86 | `decode_message(encode_message(img, m)) == m` whenever the frame fits |
| FullStack.EncodeImage | StegoShield_fullStack/backend/steganography.py:88-106 | `TooLarge` iff the image frame exceeds the capacity; otherwise the same size, carrying the frame |
| FullStack.ParseHeader | StegoShield_fullStack/backend/steganography.py:142-143 | a header parses iff it holds exactly one `x` with a decimal number on each side, and then its value is those two numbers |
| FullStack.ParseHeaderShow | StegoShield_fullStack/backend/steganography.py:142-143 | the header `f"{w}x{h}"` parses back as `(w, h)` |
| FullStack.HeaderAscii | StegoShield_fullStack/backend/steganography.py:95 | the header is ASCII |
| FullStack.ReadPixels | StegoShield_fullStack/backend/steganography.py:154-159 | `count` pixels; `FullStack.ReadPixelBits` and `FullStack.PixelBitsOfRead` make it the inverse of the pixel dump |
| FullStack.ReadPixelBits | StegoShield_fullStack/backend/steganography.py:154-159 | reading `n` pixels from the dump of `n` pixels gives them back |
| FullStack.PixelBitsOfRead | StegoShield_fullStack/backend/steganography.py:154-159 | dumping the pixels read from `24n` bits gives those bits back |
| FullStack.ParseImagePayload | StegoShield_fullStack/backend/steganography.py:131-159 | the result is well formed; errors are only `CorruptHeader` or `MissingPixels`; a bare type bit is `CorruptHeader` |
| FullStack.HeaderEnd | StegoShield_fullStack/backend/steganography.py:133-138 | the header ends after the length field and within the payload, however large the declared length |
| FullStack.UnparsedHeader | StegoShield_fullStack/backend/steganography.py:132-146 | a payload with no length-field bits, or whose header does not parse, is `CorruptHeader` |
| FullStack.ShortPixelField | StegoShield_fullStack/backend/steganography.py:148-152 | a parsed header `(w, h)` followed by fewer than `24 * w * h` bits is `MissingPixels` |
| FullStack.ParsedPayload | StegoShield_fullStack/backend/steganography.py:148-163 | otherwise the result is the `w` by `h` image read from the first `24 * w * h` bits after the header |
| FullStack.ParseLaidOut | StegoShield_fullStack/backend/steganography.py:131-159 | a payload laid out as the encoder lays it out parses into its size and pixels |
| FullStack.ImagePayload | StegoShield_fullStack/backend/steganography.py:94-100 | type bit 1, and for a header below 2^16 bits its length is 17 plus the header plus 24 bits per pixel; `FullStack.LaidOutFields` recovers the header and pixel fields |
| FullStack.LaidOutFields | StegoShield_fullStack/backend/steganography.py:133-138 | in such a payload the header and pixel slices are exactly the header and pixels written |
| FullStack.ParseImagePayloadOf | StegoShield_fullStack/backend/steganography.py:131-159 | the payload of a secret image parses back to that image |
| FullStack.DecodeImage | StegoShield_fullStack/backend/steganography.py:108-163 | `NotEncoded`, `Incomplete` and `NotImage` each exactly (`NotImage` iff the payload is empty or starts with 0); the other errors are only `CorruptHeader` or `MissingPixels`; a success is well formed |
| FullStack.DecodeImagePayload | StegoShield_fullStack/backend/steganography.py:127-163 | past the frame and type-bit checks, image decoding is the payload parse |
| FullStack.DecodeCorruptHeader | StegoShield_fullStack/backend/steganography.py:131-146 | for an image payload, `CorruptHeader` iff the payload has no length-field bits or its header does not split at `x` into two numbers |
| FullStack.DecodeMissingPixels | StegoShield_fullStack/backend/steganography.py:148-152 | for a header that parses as `(w, h)`, `MissingPixels` iff fewer than `24 * w * h` bits follow the header |
| FullStack.DecodeCarriedImage | StegoShield_fullStack/backend/steganography.py:108-163 | any buffer carrying an image's frame decodes to that image |
| FullStack.ImageRoundTrip | StegoShield_fullStack/backend/steganography.py:88-163 | `decode_image(encode_image(c, s)) == s` whenever the frame fits |
| FullStack.BlankCarrierRejected | StegoShield_fullStack/backend/steganography.py:63-80 | a carrier with all LSBs 0 is read as neither a text nor an image |
| Sentinel.MarkerBytes | StegoShield_Webapp/steganography.py:5 | the marker is the 8-bit codes of 255 and 254 |
| Sentinel.Embed | StegoShield_Desktop/steganography.py:12-19 | from pixel `i` on: fails iff the frame needs more pixels than exist; stamps the pixels that hold frame bits and copies the rest |
| Sentinel.EmbedFrame | StegoShield_Desktop/steganography.py:9-20 | succeeds iff the frame fits; keeps the size; carries the frame; changes only LSBs; pixels past ceil(len/3) are unchanged |
| Sentinel.FindMarker | StegoShield_Desktop/steganography.py:26-29 | the first prefix length from `n` on that ends with the marker, and none is earlier; `None` iff there is none |
| Sentinel.FirstMarkerIs | StegoShield_Desktop/steganography.py:26-29 | a marker at `n` with none before it is what the scan finds |
| Sentinel.ScanStep | StegoShield_Desktop/steganography.py:28-29 | one more bit either completes the first marker or keeps the scan clear |
| Sentinel.ScanForMarker | StegoShield_Desktop/steganography.py:25-29 | the nested loop stops exactly at the first marker, with the bits read so far; without a marker it has read the whole stream |
| Sentinel.GroupChars | StegoShield_Desktop/steganography.py:30-31 | one Latin-1 character per 8-bit group before the marker |
| Sentinel.GroupCharsAt | StegoShield_Desktop/steganography.py:30 | character `i` is `int(bits[8i:8i+8], 2)` |
| Sentinel.GroupCharsOfText | StegoShield_Desktop/steganography.py:30-31 | over whole bytes the grouping is `BitsToStr` |
| Sentinel.NoEarlyMarker | StegoShield_Desktop/steganography.py:8 | text whose bytes all start with 0, followed by the marker, holds the marker only at its end |
| Sentinel.FindFrame | StegoShield_Desktop/steganography.py:26-29 | a buffer carrying such a frame is scanned exactly up to the frame's end |
| Sentinel.ReadText | StegoShield_Desktop/steganography.py:26-31 | such a buffer is read back as the text's characters |
| Sentinel.ReadMarkedText | StegoShield_Webapp/steganography.py:21-25 | the same for any whole bytes that do not complete the marker early |
| Sentinel.ReadMarkedString | StegoShield_Webapp/steganography.py:21-25 | a carried Latin-1 string without an early marker is read back as that string |
| Desktop.MessageFrame | StegoShield_Desktop/steganography.py:7-8 | the 8-bit codes of the base64 text followed by the marker |
| Desktop.MessageFrameMarked | StegoShield_Desktop/steganography.py:7-8 | the base64 frame holds the marker only at its end; 8 bits per character plus 16 |
| Desktop.EncodeMessage | StegoShield_Desktop/steganography.py:5-21 | `OutOfPixels` iff the frame exceeds the capacity; otherwise the same size, carrying the frame, LSB-only, pixels past the frame unchanged |
| Desktop.DecodeMessage | StegoShield_Desktop/steganography.py:23-36 | with the result tagged as message or notice: the "No hidden message" notice iff no marker is ever read; the only other notice is the decoding failure |
| Desktop.DecodeCarriedMessage | StegoShield_Desktop/steganography.py:23-36 | any buffer carrying a message's frame decodes to that message |
| Desktop.ReadEncodedText | StegoShield_Desktop/steganography.py:26-30 | in a buffer carrying a message's frame the first marker ends right after the base64 text, and the characters before it are that text |
| Desktop.ReadAsciiText | StegoShield_Desktop/steganography.py:26-30 | the same for the 8-bit codes of any ASCII text followed by the marker |
| Desktop.DecodeEncodedText | StegoShield_Desktop/steganography.py:26-36 | a buffer whose first marker closes a text that base64-decodes to `m` decodes to `m` |
| Desktop.MessageRoundTrip | StegoShield_Desktop/steganography.py:5-36 | `decode_message(encode_message(img, m)) == m` whenever the frame fits |
| Desktop.ImageFrame | StegoShield_Desktop/steganography.py:48 | 24 bits per secret pixel, then 16 marker bits |
| Desktop.EncodeImage | StegoShield_Desktop/steganography.py:38-61 | as written: `SecretTooLarge` iff `3 * len(secret) > len(carrier)`; `OutOfPixels` iff the guard passes but the frame does not fit; no other error, so a secret that fits is encoded: the frame is carried, LSB-only, with the tail unchanged |
| Desktop.GuardAdmitsOverflow | StegoShield_Desktop/steganography.py:45-53 | as written, a carrier of exactly three pixels per secret pixel passes the guard and then runs out of pixels |
| Desktop.EncodeImageChecked | StegoShield_Desktop/steganography.py:45-46 | corrected guard: `SecretTooLarge` iff the frame does not fit, and never StopIteration |
| Desktop.CheckedAgrees | StegoShield_Desktop/steganography.py:45-46 | where the corrected guard admits a secret, the code as written embeds the same pixels |
| Desktop.ScanPixel | StegoShield_Desktop/steganography.py:67-70 | the channel loop with its `break` keeps what was read and adds at most the remaining channels |
| Desktop.ScanWithBreak | StegoShield_Desktop/steganography.py:66-70 | the scan with the inner `break` keeps what it has read and adds at most 3 bits per pixel |
| Desktop.ScanPrefix | StegoShield_Desktop/steganography.py:66-70 | before any marker the scan reads what it had, then the LSB stream; if the marker is read in the last pixel, the scan ends exactly there |
| Desktop.ScanReadsStream | StegoShield_Desktop/steganography.py:66-70 | from an empty start, the scan agrees with the stream up to the first marker, and ends there when that is in the last pixel |
| Desktop.ScanWithoutMarker | StegoShield_Desktop/steganography.py:66-70 | without a marker the scan reads the whole stream |
| Desktop.ScanAppend | StegoShield_Desktop/steganography.py:66-68 | the scan of joined pixel runs is the scan of the second continuing the first |
| Desktop.DropLast16 | StegoShield_Desktop/steganography.py:72 | `bits[:-16]` is the prefix of `bits` that is 16 bits shorter, or empty |
| Desktop.Triples | StegoShield_Desktop/steganography.py:74-78 | one pixel per started 24-bit group when it succeeds; `Desktop.TriplesDefined` gives exactly when it fails and `Desktop.TriplesOfPixelBits` regroups a dump into its pixels |
| Desktop.TriplesDefined | StegoShield_Desktop/steganography.py:74-78 | the 24-bit regrouping fails iff the last group has 1 to 16 bits; otherwise one pixel per started group |
| Desktop.LeadingPixel | StegoShield_Desktop/steganography.py:75-77 | a full 24-bit group is read like any pixel; a short group of 17 to 23 bits gives red and green that write back as its first two bytes, and a blue that writes back as the remaining bits |
| Desktop.TriplesOfPixelBits | StegoShield_Desktop/steganography.py:74-78 | a pixel dump regroups into its pixels, followed by whatever the rest regroups into |
| Desktop.Fill | StegoShield_Desktop/steganography.py:80-81 | a new image of the given size: the pixels read, then black |
| Desktop.ToPicture | StegoShield_Desktop/steganography.py:73-81 | errors are only `EmptyChannelSlice`; a success has the requested size |
| Desktop.PixelsToPicture | StegoShield_Desktop/steganography.py:73-81 | the dump of exactly `w * h` pixels becomes that image |
| Desktop.DecodeImage | StegoShield_Desktop/steganography.py:63-82 | as written: errors are only `EmptyChannelSlice`; a success is well formed with the requested size |
| Desktop.DecodeImageWithoutMarker | StegoShield_Desktop/steganography.py:66-78 | without a marker, decoding fails iff the stream minus 16 bits ends in a group of 1 to 16 bits |
| Desktop.DecodeImageFails | StegoShield_Desktop/steganography.py:63-82 | decoding fails iff the bits kept after the scan and the 16-bit cut end in a group of 1 to 16 bits |
| Desktop.ScannedFrame | StegoShield_Desktop/steganography.py:66-72 | for a secret whose frame holds the marker only at its end: after dropping 16 bits, the scan of a carried frame opens with the pixel dump |
| Desktop.DecodeCarriedImage | StegoShield_Desktop/steganography.py:63-82 | as written, for a secret whose frame holds the marker only at its end: a carried secret comes back exactly or decoding fails with `EmptyChannelSlice` |
| Desktop.DarkFrameMarked | StegoShield_Desktop/steganography.py:48 | the frame of a secret with every channel below 128 holds the marker only at its end |
| Desktop.ImageRoundTrip | StegoShield_Desktop/steganography.py:38-82 | as written, for a secret whose frame holds the marker only at its end: the secret comes back or decoding fails, never a wrong image |
| Desktop.DecodeImageAtMarker | StegoShield_Desktop/steganography.py:63-82 | corrected decoder that stops at the first marker: errors are only `EmptyChannelSlice`; successes have the requested size |
| Desktop.AtMarkerWithoutMarker | StegoShield_Desktop/steganography.py:66-72 | where no marker is read, the corrected and as-written decoders agree |
| Desktop.DecodeCarriedImageAtMarker | StegoShield_Desktop/steganography.py:63-82 | the corrected decoder returns exactly every carried secret whose frame holds the marker only at its end |
| Desktop.ImageRoundTripAtMarker | StegoShield_Desktop/steganography.py:38-82 | the corrected guard and decoder round-trip every secret whose frame holds the marker only at its end |
| Desktop.ScanTrailingPixel | StegoShield_Desktop/steganography.py:66-72 | a frame ending in the first channel of the last-but-one pixel is followed by the last pixel's three LSBs |
| Desktop.ScanWholeFrame | StegoShield_Desktop/steganography.py:66-70 | when the frame ends in the last pixel, the scan is exactly the frame |
| Desktop.TrailingPixelBreaksDecode | StegoShield_Desktop/steganography.py:66-78 | in that layout, the as-written decoder fails and the corrected one returns the secret |
| Desktop.TrailingPixelRoundTrip | StegoShield_Desktop/steganography.py:38-82 | a dark secret in a carrier of `8n + 7` pixels whose last pixel has all LSBs 0: encoding succeeds and decoding fails |
| Desktop.ScanOnes | StegoShield_Desktop/steganography.py:66-70 | over pixels whose LSBs are all 1 the scan reads every LSB, since no run of ones ends in a 0 |
| Desktop.ScanZeros | StegoShield_Desktop/steganography.py:66-70 | after a 0, over pixels whose LSBs are all 0 the scan reads every LSB |
| Desktop.SpelledFrame | StegoShield_Desktop/steganography.py:48 | the frame of the secret pixel `(255, 255, 64)` is sixteen 1s, `0`, `1`, six 0s and the marker, so its first 17 bits end with the marker |
| Desktop.SpelledScan | StegoShield_Desktop/steganography.py:66-70 | on a 14-pixel buffer carrying that frame the scan stops the channel loop at bit 17, skips that pixel's blue LSB, and reads on to the real marker |
| Desktop.SpelledPixels | StegoShield_Desktop/steganography.py:72-78 | the 23 bits left after `[:-16]` regroup into the single pixel `(255, 255, 0)` |
| Desktop.EarlyMarkerWrongImage | StegoShield_Desktop/steganography.py:38-82 | as written, the secret `(255, 255, 64)` of size `(1, 1)`, encoded into any 14-pixel carrier, is accepted and decodes to `(255, 255, 0)` with no error |
| Desktop.EncodeImageUnambiguous | StegoShield_Desktop/steganography.py:38-61 | corrected encoder: `SecretTooLarge` iff the frame does not fit; `MarkerInSecret` iff it fits but the frame spells the marker before its end; no other error, so every other secret is encoded: the frame is carried, LSB-only, the tail unchanged |
| Desktop.UnambiguousRoundTrip | StegoShield_Desktop/steganography.py:38-82 | every secret the corrected encoder accepts comes back exactly from the corrected decoder |
| Desktop.DarkAccepted | StegoShield_Desktop/steganography.py:38-61 | the corrected encoder accepts every secret with all channels below 128 that fits |
| Desktop.SpelledRefused | StegoShield_Desktop/steganography.py:38-61 | the corrected encoder refuses the secret `(255, 255, 64)` with `MarkerInSecret` |
| Webapp.EncodeMessage | StegoShield_Webapp/steganography.py:3-16 | `None` (StopIteration) iff the frame exceeds the capacity; otherwise the same size, carrying the frame, LSB-only, tail unchanged |
| Webapp.DecodeMessage | StegoShield_Webapp/steganography.py:18-26 | the empty string when no marker is read; every character is below 256 |
| Webapp.DecodedChars | StegoShield_Webapp/steganography.py:24-25 | with the marker at `n`, `(n - 9) / 8` characters; character `i` is `int` of LSBs `8i` to `8i + 8` |
| Webapp.EmptyAnswer | StegoShield_Webapp/steganography.py:24-26 | the answer is empty iff no marker is read or the marker opens the stream |
| Webapp.DecodeAt | StegoShield_Webapp/steganography.py:24-25 | at the first marker, the answer is the groups before it |
| Webapp.DecodeCarriedMessage | StegoShield_Webapp/steganography.py:18-26 | a carried Latin-1 message whose bits do not complete the marker early decodes to itself |
| Webapp.MessageFrame | StegoShield_Webapp/steganography.py:5 | the 8-bit codes of the message followed by the marker |
| Webapp.AsciiFrameMarked | StegoShield_Webapp/steganography.py:5 | an ASCII message's frame holds the marker only at its end |
| Webapp.MessageRoundTrip | StegoShield_Webapp/steganography.py:3-26 | `decode_message(encode_message(img, m)) == m` for ASCII `m` that fits |
| Webapp.OpensWithMarker | StegoShield_Webapp/steganography.py:5 | a message starting with U+00FF U+00FE starts its frame with the marker |
| Webapp.MarkerInMessage | StegoShield_Webapp/steganography.py:5-25 | such a message is encoded and then read back as the empty string |

## Left out

- Image files are not modelled: `Image.open`, `convert("RGB")`, `getdata`, `putdata`, `save` and the PNG format. Each operation takes and returns the pixel sequence.
- The Flask servers, the desktop GUI, the React front end and `help.py` are not part of this model.
- UTF-8 `message.encode()` and `.decode()` are not modelled. Messages are byte sequences (`seq<Byte>`) in the two base64 codecs. A failing UTF-8 decode is not modelled, so it is not reported as the desktop "decoding failed" notice.
- Webapp.EncodeMessage assumes RGB pixels. The web app does not convert images, and other modes (RGBA, palette, greyscale) are out of scope.
- Base64.Decode is strict, and Python's `b64decode` without `validate` accepts some inputs it rejects. Python discards characters outside the alphabet first, skips a `=` that comes before a group's third character, and stops after the first complete padding. Such input only comes from carriers the encoders did not produce.
- Decimal.Parse and FullStack.ParseHeader accept only ASCII digit strings. Python's `int` also accepts surrounding whitespace, a sign, underscores and non-ASCII digits. Negative sizes, which would make `Image.new` raise, are therefore never produced.
- FullStack.MessageRoundTrip and FullStack.ImageRoundTrip require the payload to be below 2^32 bits and the header below 2^16 bits. Beyond that, `format` widens the length fields and the decoder misreads them. `Binary.Format` models the widening, but no round trip holds there.
- Desktop.DecodeCarriedImage and Desktop.ImageRoundTrip state "the secret or `EmptyChannelSlice`" rather than the secret. The decoder as written fails on some layouts (see Findings). The exact round trip is proved for the corrected decoder.
- Desktop.ScannedFrame, Desktop.DecodeCarriedImage, Desktop.ImageRoundTrip, Desktop.DecodeCarriedImageAtMarker and Desktop.ImageRoundTripAtMarker require the secret's frame to hold the marker only at its end. The encoder as written accepts other secrets too, and for those the decoder can return a wrong image with no error (Desktop.EarlyMarkerWrongImage, see Findings). The corrected encoder Desktop.EncodeImageUnambiguous refuses them, and Desktop.UnambiguousRoundTrip holds for every secret it accepts, without that requirement.
- Desktop.DecodeMessage tags its result as a message or a notice. The tool returns one string for both, so a hidden message whose text equals a notice's text cannot be told apart from that notice. The model keeps the two apart.
- Webapp.MessageRoundTrip is stated for ASCII text. Code points of 256 and above are written in more than 8 bits and read back in 8-bit groups. Latin-1 bytes can complete the marker early (Webapp.MarkerInMessage). Webapp.DecodeCarriedMessage covers every Latin-1 message without an early marker.

## Findings

| source | as written | input that shows it | evidently intended | confidence | as-written member | corrected member |
|---|---|---|---|---|---|---|
| StegoShield_fullStack/backend/steganography.py:27-30 | after the loop stops, all original pixels are appended again, then the list is cut to the image size; the pixels after the frame become copies of the image's first pixels | carrier `[(0,0,0), (2,2,2), (4,4,4)]`, frame `000`: the third pixel comes out as `(0,0,0)` | pixels past the frame are left unchanged | not executed | LsbCodec.EmbedShiftsTail | LsbCodec.EmbedInPlace |
| StegoShield_Desktop/steganography.py:45-46 | the guard rejects only `3 * len(secret) > len(carrier)`, but the frame needs `(24 * len(secret) + 16) / 3` pixels | a 1-pixel secret in a 3-pixel carrier passes the guard, and `next(data_iter)` then raises StopIteration | reject exactly when the frame does not fit | not executed | Desktop.GuardAdmitsOverflow | Desktop.EncodeImageChecked |
| StegoShield_Desktop/steganography.py:66-72 | `break` leaves only the channel loop, so the scan goes on through every later pixel, and `[:-16]` then cuts the end of the whole scan rather than the marker | a secret of one pixel `(0,0,0)`, size `(1, 1)`, encoded into 15 black pixels: the scan reads 43 bits, 27 remain, and the last group of 3 bits makes `int('', 2)` raise ValueError | stop reading at the marker and drop it | not executed | Desktop.TrailingPixelBreaksDecode | Desktop.DecodeImageAtMarker |
| StegoShield_Desktop/steganography.py:48-78 | the pixel dump is written with no escaping, and the reader ends its channel loop wherever fifteen 1s and a 0 have just been read, even inside the dump | the secret `(255, 255, 64)`, size `(1, 1)`, encoded into any 14-pixel carrier: the scan stops a pixel at bit 17, skips that pixel's blue LSB, and reads on to the real marker; `[:-16]` keeps 23 bits, which decode to `(255, 255, 0)` with no error | the decoded image is the secret, or an error | not executed | Desktop.EarlyMarkerWrongImage | Desktop.EncodeImageUnambiguous |

=== FILE: base64.dfy ===
/** Base64 as in section 4 of RFC 4648 (standard alphabet, '=' padding), the
    layer `b64encode`/`b64decode` put around the text payloads. The decoder is
    the strict one: only alphabet characters, whole 4-character groups, and
    padding only in the last group.

    Characters are first classified into symbols (a 6-bit value, the pad
    character, or anything else); the group arithmetic works on symbols. */
module Base64 {
  import opened Binary
  import opened Results

  /** A 6-bit value, the content of one base64 character. */
  type Six = x: int | 0 <= x < 64

  datatype Symbol = Value(v: Six) | Pad | Invalid

  /** Character of the 6-bit value `v` in the base64 alphabet. */
  function Digit(v: Six): (c: char)
    ensures c as int < 128
    ensures c != '='
    ensures DigitValue(c) == Some(v)
  {
    if v < 26 then ('A' as int + v) as char
    else if v < 52 then ('a' as int + (v - 26)) as char
    else if v < 62 then ('0' as int + (v - 52)) as char
    else if v == 62 then '+'
    else '/'
  }

  /** The 6-bit value of an alphabet character; `None` for anything else, '=' included. */
  function DigitValue(c: char): (r: Option<Six>)
    ensures c == '=' ==> r.None?
  {
    if 'A' <= c <= 'Z' then Some(c as int - 'A' as int)
    else if 'a' <= c <= 'z' then Some(c as int - 'a' as int + 26)
    else if '0' <= c <= '9' then Some(c as int - '0' as int + 52)
    else if c == '+' then Some(62)
    else if c == '/' then Some(63)
    else None
  }

  function Classify(c: char): Symbol
  {
    if c == '=' then Pad
    else match DigitValue(c)
      case Some(v) => Value(v)
      case None => Invalid
  }

  predicate Printable(xs: seq<Symbol>)
  {
    forall i :: 0 <= i < |xs| ==> !xs[i].Invalid?
  }

  /** Symbols to characters; classifying the characters gives the symbols back. */
  function Render(xs: seq<Symbol>): (r: seq<char>)
    requires Printable(xs)
    ensures |r| == |xs|
    ensures Ascii(r)
    ensures forall i :: 0 <= i < |r| ==> Classify(r[i]) == xs[i]
  {
    seq(|xs|, i requires 0 <= i < |xs| => if xs[i].Pad? then '=' else Digit(xs[i].v))
  }

  /** The symbols of `b64encode`: each 3 bytes become 4 values; a final 1 or 2
      bytes give 2 or 3 values followed by padding. */
  function EncodeSymbols(bytes: seq<Byte>): (r: seq<Symbol>)
    ensures |r| == 4 * ((|bytes| + 2) / 3)
    ensures Printable(r)
    decreases |bytes|
  {
    if |bytes| == 0 then []
    else if |bytes| == 1 then
      [Value(bytes[0] / 4), Value(bytes[0] % 4 * 16), Pad, Pad]
    else if |bytes| == 2 then
      [Value(bytes[0] / 4), Value(bytes[0] % 4 * 16 + bytes[1] / 16), Value(bytes[1] % 16 * 4), Pad]
    else
      [Value(bytes[0] / 4), Value(bytes[0] % 4 * 16 + bytes[1] / 16),
       Value(bytes[1] % 16 * 4 + bytes[2] / 64), Value(bytes[2] % 64)]
      + EncodeSymbols(bytes[3..])
  }

  /** `b64encode`. */
  function Encode(bytes: seq<Byte>): (r: seq<char>)
    ensures |r| == 4 * ((|bytes| + 2) / 3)
    ensures Ascii(r)
  {
    Render(EncodeSymbols(bytes))
  }

  /** First byte of a group: the 6 bits of `v0` then the top 2 of `v1`. */
  function Byte0(v0: Six, v1: Six): Byte
  {
    v0 * 4 + v1 / 16
  }

  /** Second byte: the low 4 bits of `v1` then the top 4 of `v2`. */
  function Byte1(v1: Six, v2: Six): Byte
  {
    v1 % 16 * 16 + v2 / 4
  }

  /** Third byte: the low 2 bits of `v2` then the 6 of `v3`. */
  function Byte2(v2: Six, v3: Six): Byte
  {
    v2 % 4 * 64 + v3
  }

  /** A group of four values to three bytes. */
  function FullGroup(a: Symbol, b: Symbol, c: Symbol, d: Symbol): (r: Option<seq<Byte>>)
    ensures r.Some? ==> |r.value| == 3
  {
    match (a, b, c, d)
    case (Value(v0), Value(v1), Value(v2), Value(v3)) =>
      Some([Byte0(v0, v1), Byte1(v1, v2), Byte2(v2, v3)])
    case _ => None
  }

  /** The last group, which may end in two pads (one byte) or one pad (two bytes). */
  function LastGroup(a: Symbol, b: Symbol, c: Symbol, d: Symbol): (r: Option<seq<Byte>>)
    ensures r.Some? ==> 1 <= |r.value| <= 3
  {
    match (a, b, c, d)
    case (Value(v0), Value(v1), Pad, Pad) => Some([Byte0(v0, v1)])
    case (Value(v0), Value(v1), Value(v2), Pad) => Some([Byte0(v0, v1), Byte1(v1, v2)])
    case _ => FullGroup(a, b, c, d)
  }

  function DecodeSymbols(xs: seq<Symbol>): (r: Option<seq<Byte>>)
    ensures r.Some? ==> |xs| % 4 == 0
    ensures r.Some? ==> |r.value| <= 3 * (|xs| / 4) <= |r.value| + 2
    decreases |xs|
  {
    if |xs| == 0 then Some([])
    else if |xs| < 4 then None
    else if |xs| == 4 then LastGroup(xs[0], xs[1], xs[2], xs[3])
    else
      match (FullGroup(xs[0], xs[1], xs[2], xs[3]), DecodeSymbols(xs[4..]))
      case (Some(head), Some(tail)) => Some(head + tail)
      case _ => None
  }

  /** Strict `b64decode`: `None` where Python raises. */
  function Decode(s: seq<char>): (r: Option<seq<Byte>>)
    ensures r.Some? ==> |s| % 4 == 0
    ensures r.Some? ==> |r.value| <= 3 * (|s| / 4) <= |r.value| + 2
  {
    DecodeSymbols(seq(|s|, i requires 0 <= i < |s| => Classify(s[i])))
  }

  /** The bit arithmetic of one group undoes itself. */
  lemma {:induction false} GroupArithmetic(b0: Byte, b1: Byte, b2: Byte)
    ensures Byte0(b0 / 4, b0 % 4 * 16 + b1 / 16) == b0
    ensures Byte1(b0 % 4 * 16 + b1 / 16, b1 % 16 * 4 + b2 / 64) == b1
    ensures Byte2(b1 % 16 * 4 + b2 / 64, b2 % 64) == b2
    ensures Byte1(b0 % 4 * 16 + b1 / 16, b1 % 16 * 4) == b1
  {
    var v1 := b0 % 4 * 16 + b1 / 16;
    var v2 := b1 % 16 * 4 + b2 / 64;
    assert v1 / 16 == b0 % 4 && v1 % 16 == b1 / 16;
    assert v2 / 4 == b1 % 16 && v2 % 4 == b2 / 64;
    assert (b1 % 16 * 4) / 4 == b1 % 16;
  }

  lemma {:induction false} DecodeLeadingGroup(xs: seq<Symbol>, head: seq<Byte>, tail: seq<Byte>)
    requires |xs| > 4
    requires FullGroup(xs[0], xs[1], xs[2], xs[3]) == Some(head)
    requires DecodeSymbols(xs[4..]) == Some(tail)
    ensures DecodeSymbols(xs) == Some(head + tail)
  {
  }

  /** The symbols of three bytes followed by more. */
  lemma {:induction false} EncodeSymbolsGroup(bytes: seq<Byte>)
    requires |bytes| >= 3
    ensures var xs := EncodeSymbols(bytes);
            var b0, b1, b2 := bytes[0], bytes[1], bytes[2];
            && xs[..4] == [Value(b0 / 4), Value(b0 % 4 * 16 + b1 / 16),
                           Value(b1 % 16 * 4 + b2 / 64), Value(b2 % 64)]
            && xs[4..] == EncodeSymbols(bytes[3..])
  {
  }

  lemma {:induction false} DecodeOneByte(b0: Byte)
    ensures DecodeSymbols(EncodeSymbols([b0])) == Some([b0])
  {
    GroupArithmetic(b0, 0, 0);
    var v0, v1 := b0 / 4, b0 % 4 * 16;
    assert EncodeSymbols([b0]) == [Value(v0), Value(v1), Pad, Pad];
    assert LastGroup(Value(v0), Value(v1), Pad, Pad) == Some([Byte0(v0, v1)]);
  }

  lemma {:induction false} DecodeTwoBytes(b0: Byte, b1: Byte)
    ensures DecodeSymbols(EncodeSymbols([b0, b1])) == Some([b0, b1])
  {
    GroupArithmetic(b0, b1, 0);
    var v0, v1, v2 := b0 / 4, b0 % 4 * 16 + b1 / 16, b1 % 16 * 4;
    assert EncodeSymbols([b0, b1]) == [Value(v0), Value(v1), Value(v2), Pad];
    assert LastGroup(Value(v0), Value(v1), Value(v2), Pad) == Some([Byte0(v0, v1), Byte1(v1, v2)]);
  }

  /** The first four symbols of an encoding of three or more bytes decode to its first three bytes. */
  lemma {:induction false} DecodeFirstGroup(bytes: seq<Byte>)
    requires |bytes| >= 3
    ensures var xs := EncodeSymbols(bytes);
            |xs| >= 4 && FullGroup(xs[0], xs[1], xs[2], xs[3]) == Some(bytes[..3])
            && LastGroup(xs[0], xs[1], xs[2], xs[3]) == Some(bytes[..3])
  {
    var b0, b1, b2 := bytes[0], bytes[1], bytes[2];
    GroupArithmetic(b0, b1, b2);
    var xs := EncodeSymbols(bytes);
    EncodeSymbolsGroup(bytes);
    var x0, x1 := Value(b0 / 4), Value(b0 % 4 * 16 + b1 / 16);
    var x2, x3 := Value(b1 % 16 * 4 + b2 / 64), Value(b2 % 64);
    assert xs[0] == x0 && xs[1] == x1 && xs[2] == x2 && xs[3] == x3;
    assert bytes[..3] == [b0, b1, b2];
  }

  /** Decoding the symbols of an encoding gives the bytes back. */
  lemma {:induction false} DecodeEncodeSymbols(bytes: seq<Byte>)
    ensures DecodeSymbols(EncodeSymbols(bytes)) == Some(bytes)
    decreases |bytes|
  {
    if |bytes| == 1 {
      assert bytes == [bytes[0]];
      DecodeOneByte(bytes[0]);
    } else if |bytes| == 2 {
      assert bytes == [bytes[0], bytes[1]];
      DecodeTwoBytes(bytes[0], bytes[1]);
    } else if |bytes| >= 3 {
      var xs := EncodeSymbols(bytes);
      DecodeFirstGroup(bytes);
      EncodeSymbolsGroup(bytes);
      if |bytes| == 3 {
        assert |xs| == 4;
        assert bytes == bytes[..3];
      } else {
        DecodeEncodeSymbols(bytes[3..]);
        DecodeLeadingGroup(xs, bytes[..3], bytes[3..]);
        assert bytes == bytes[..3] + bytes[3..];
      }
    }
  }

  /** Decoding an encoding gives the bytes back. */
  lemma {:induction false} DecodeEncode(bytes: seq<Byte>)
    ensures Decode(Encode(bytes)) == Some(bytes)
  {
    var xs := EncodeSymbols(bytes);
    var s := Encode(bytes);
    assert seq(|s|, i requires 0 <= i < |s| => Classify(s[i])) == xs;
    DecodeEncodeSymbols(bytes);
  }
}

=== FILE: binary.dfy ===
/** Bit strings as the codecs build them: Python's `format(n, '0<w>b')`,
    `int(bits, 2)`, and the `_str_to_binary` character encoding, with bits
    held as `seq<bool>` (most significant bit first, `true` for '1'). */
module Binary {

  /** An 8-bit unsigned value: a pixel channel or one byte of a message. */
  type Byte = x: int | 0 <= x < 256

  /** Nothing appended. */
  lemma AppendEmpty(a: seq<bool>)
    ensures a + [] == a && [] + a == a
  {
  }

  /** A prefix cut in two. */
  lemma TakeSplit(s: seq<bool>, a: nat, n: nat)
    requires a <= n <= |s|
    ensures s[..n] == s[..a] + s[a..][..n - a]
  {
  }

  /** A slice of a suffix is a slice of the whole. */
  lemma SliceOfDrop(s: seq<bool>, a: nat, lo: nat, hi: nat)
    requires a <= |s| && lo <= hi <= |s| - a
    ensures s[a..][lo..hi] == s[a + lo..a + hi]
  {
  }

  /** A slice of a prefix is a slice of the whole. */
  lemma SliceOfTake(s: seq<bool>, n: nat, lo: nat, hi: nat)
    requires lo <= hi <= n <= |s|
    ensures s[..n][lo..hi] == s[lo..hi]
  {
  }

  lemma EightDivides(k: nat)
    ensures (8 * k) % 8 == 0
  {
  }

  /** The two halves of a concatenation. */
  lemma AppendHalves(a: seq<bool>, b: seq<bool>)
    ensures (a + b)[..|a|] == a && (a + b)[|a|..] == b
  {
  }

  /** Concatenation regrouped. */
  lemma AppendAssoc(a: seq<bool>, b: seq<bool>, c: seq<bool>)
    ensures (a + b) + c == a + (b + c)
  {
  }

  function Pow2(k: nat): (r: nat)
    ensures r >= 1
  {
    if k == 0 then 1 else 2 * Pow2(k - 1)
  }

  lemma {:induction false} Pow2Monotone(a: nat, b: nat)
    requires a <= b
    ensures Pow2(a) <= Pow2(b)
    decreases b
  {
    if a < b {
      Pow2Monotone(a, b - 1);
    }
  }

  /** The low `width` bits of `n`, most significant first. */
  function ToBits(n: nat, width: nat): (r: seq<bool>)
    ensures |r| == width
  {
    if width == 0 then [] else ToBits(n / 2, width - 1) + [n % 2 == 1]
  }

  /** Python's `int(bits, 2)` for a non-empty bit string (0 for the empty one,
      which the callers rule out or report as an error themselves). */
  function FromBits(bits: seq<bool>): (r: nat)
    ensures r < Pow2(|bits|)
  {
    if |bits| == 0 then 0
    else 2 * FromBits(bits[..|bits| - 1]) + (if bits[|bits| - 1] then 1 else 0)
  }

  lemma {:induction false} FromToBits(n: nat, width: nat)
    requires n < Pow2(width)
    ensures FromBits(ToBits(n, width)) == n
  {
    if width > 0 {
      var t := ToBits(n / 2, width - 1);
      FromToBits(n / 2, width - 1);
      assert (t + [n % 2 == 1])[..width - 1] == t;
    }
  }

  lemma {:induction false} ToFromBits(bits: seq<bool>)
    ensures ToBits(FromBits(bits), |bits|) == bits
  {
    if |bits| > 0 {
      var init := bits[..|bits| - 1];
      ToFromBits(init);
      assert bits == init + [bits[|bits| - 1]];
    }
  }

  /** The leading bit is set exactly when the value reaches the top half of the range. */
  lemma {:induction false} LeadingBit(bits: seq<bool>)
    requires |bits| >= 1
    ensures bits[0] <==> FromBits(bits) >= Pow2(|bits| - 1)
  {
    if |bits| > 1 {
      var init := bits[..|bits| - 1];
      LeadingBit(init);
      assert init[0] == bits[0];
    }
  }

  /** Number of binary digits of `n` (0 for 0), as Python's `int.bit_length`. */
  function BitLength(n: nat): (r: nat)
    ensures n < Pow2(r)
    ensures n > 0 ==> r >= 1 && Pow2(r - 1) <= n
  {
    if n == 0 then 0 else 1 + BitLength(n / 2)
  }

  /** Python's `format(n, '0<width>b')` for a non-negative `n`: the binary digits
      of `n`, zero-padded on the left to `width`, never truncated. */
  function Format(n: nat, width: nat): (r: seq<bool>)
    ensures FromBits(r) == n
    ensures |r| >= width
    ensures n < Pow2(width) <==> |r| == width
    ensures |r| > width ==> r[0]
  {
    if n < Pow2(width) then
      FromToBits(n, width);
      ToBits(n, width)
    else
      var len := BitLength(n);
      FromToBits(n, len);
      assert len > width by {
        if len <= width {
          Pow2Monotone(len, width);
        }
      }
      LeadingBit(ToBits(n, len));
      ToBits(n, len)
  }

  /** Every character has a code below 256 (one 8-bit group each). */
  predicate Latin1(s: seq<char>)
  {
    forall i :: 0 <= i < |s| ==> s[i] as int < 256
  }

  /** Every character has a code below 128 (the high bit of its group is 0). */
  predicate Ascii(s: seq<char>)
  {
    forall i :: 0 <= i < |s| ==> s[i] as int < 128
  }

  /** `_str_to_binary`: each character's code in at least eight binary digits,
      joined in order. */
  function StrToBinary(s: seq<char>): (r: seq<bool>)
    ensures |r| >= 8 * |s|
    ensures Latin1(s) ==> |r| == 8 * |s|
  {
    if |s| == 0 then [] else Format(s[0] as int, 8) + StrToBinary(s[1..])
  }

  /** Bits read back as characters: each 8-bit group, the last one possibly
      shorter, is read as a binary number and taken as a character code. */
  function BitsToStr(bits: seq<bool>): (r: seq<char>)
    ensures |r| == (|bits| + 7) / 8
    ensures Latin1(r)
  {
    if |bits| == 0 then []
    else
      var k := if |bits| < 8 then |bits| else 8;
      Pow2Monotone(k, 8);
      [FromBits(bits[..k]) as char] + BitsToStr(bits[k..])
  }

  /** Grouping the bits of a Latin-1 string by eight gives the string back. */
  lemma {:induction false} StrBinaryRoundTrip(s: seq<char>)
    requires Latin1(s)
    ensures BitsToStr(StrToBinary(s)) == s
  {
    if |s| > 0 {
      var head := Format(s[0] as int, 8);
      AppendHalves(head, StrToBinary(s[1..]));
      StrBinaryRoundTrip(s[1..]);
      assert s == [s[0]] + s[1..];
    }
  }

  lemma {:induction false} StrToBinaryAppend(s: seq<char>, t: seq<char>)
    ensures StrToBinary(s + t) == StrToBinary(s) + StrToBinary(t)
  {
    if |s| > 0 {
      assert (s + t)[1..] == s[1..] + t;
      StrToBinaryAppend(s[1..], t);
    } else {
      assert s + t == t;
    }
  }

  /** Made of whole 8-bit groups whose leading bit is 0. */
  predicate HighBitsClear(bits: seq<bool>)
  {
    |bits| % 8 == 0 && forall i :: 0 <= i < |bits| && i % 8 == 0 ==> !bits[i]
  }

  lemma {:induction false} HighBitsClearAppend(a: seq<bool>, b: seq<bool>)
    requires HighBitsClear(a) && HighBitsClear(b)
    ensures HighBitsClear(a + b)
  {
    forall i | 0 <= i < |a + b| && i % 8 == 0
      ensures !(a + b)[i]
    {
      if i >= |a| {
        assert (i - |a|) % 8 == 0;
      }
    }
  }

  /** A code below 128 formats to eight bits with a leading 0. */
  lemma {:induction false} Format8Low(v: nat)
    requires v < 128
    ensures HighBitsClear(Format(v, 8))
  {
    assert Pow2(7) == 128;
    LeadingBit(Format(v, 8));
  }

  lemma {:induction false} AsciiHighBitsClear(s: seq<char>)
    requires Ascii(s)
    ensures HighBitsClear(StrToBinary(s))
  {
    if |s| > 0 {
      Format8Low(s[0] as int);
      AsciiHighBitsClear(s[1..]);
      HighBitsClearAppend(Format(s[0] as int, 8), StrToBinary(s[1..]));
    }
  }

  lemma {:induction false} FromBitsZeros(bits: seq<bool>)
    requires forall i :: 0 <= i < |bits| ==> !bits[i]
    ensures FromBits(bits) == 0
  {
    if |bits| > 0 {
      FromBitsZeros(bits[..|bits| - 1]);
    }
  }

  /** Eight bits read as a number and formatted back with `'08b'` are unchanged. */
  lemma {:induction false} FormatFromBits8(bits: seq<bool>)
    requires |bits| == 8
    ensures Format(FromBits(bits), 8) == bits
  {
    ToFromBits(bits);
  }
}

=== FILE: decimal.dfy ===
/** The text side of the image header "<width>x<height>": Python's f"{n}" for a
    non-negative int, `int(s)` restricted to plain ASCII digit strings, and
    `str.split(sep)`. */
module Decimal {
  import opened Results

  predicate IsDigit(c: char)
  {
    '0' <= c <= '9'
  }

  predicate AllDigits(s: string)
  {
    forall i :: 0 <= i < |s| ==> IsDigit(s[i])
  }

  function DigitChar(d: nat): (c: char)
    requires d < 10
    ensures IsDigit(c)
  {
    ('0' as int + d) as char
  }

  /** f"{n}": decimal digits, no leading zeros. */
  function Show(n: nat): (r: string)
    ensures |r| >= 1
    ensures AllDigits(r)
  {
    if n < 10 then [DigitChar(n)] else Show(n / 10) + [DigitChar(n % 10)]
  }

  function Value(s: string): nat
    requires AllDigits(s)
  {
    if |s| == 0 then 0 else 10 * Value(s[..|s| - 1]) + (s[|s| - 1] as int - '0' as int)
  }

  /** `int(s)` on digit strings; `None` where Python raises ValueError. */
  function Parse(s: string): (r: Option<nat>)
    ensures r.Some? <==> |s| > 0 && AllDigits(s)
  {
    if |s| > 0 && AllDigits(s) then Some(Value(s)) else None
  }

  lemma {:induction false} ParseShow(n: nat)
    ensures Parse(Show(n)) == Some(n)
  {
    var s := Show(n);
    if n >= 10 {
      ParseShow(n / 10);
      assert s[..|s| - 1] == Show(n / 10);
      assert Value(s) == 10 * (n / 10) + n % 10;
    } else {
      assert s[..0] == [];
    }
  }

  /** `sep.join(parts)`: the parts with `sep` between each two. */
  function Join(parts: seq<string>, sep: char): string
  {
    if |parts| == 0 then []
    else if |parts| == 1 then parts[0]
    else parts[0] + [sep] + Join(parts[1..], sep)
  }

  /** `s.split(sep)`: the pieces between occurrences of `sep`, always at least
      one; joined with `sep` they give `s` back. */
  function Split(s: string, sep: char): (r: seq<string>)
    ensures |r| >= 1
    ensures forall i :: 0 <= i < |r| ==> sep !in r[i]
    ensures Join(r, sep) == s
  {
    if |s| == 0 then [[]]
    else
      var rest := Split(s[1..], sep);
      if s[0] == sep then
        var r := [[]] + rest;
        assert r[0] == [] && r[1..] == rest;
        assert s == [] + [sep] + s[1..];
        r
      else
        var r := [[s[0]] + rest[0]] + rest[1..];
        assert r[1..] == rest[1..];
        assert |rest| > 1 ==> Join(rest, sep) == rest[0] + [sep] + Join(rest[1..], sep);
        assert s == [s[0]] + s[1..];
        r
  }

  lemma {:induction false} SplitNoSep(s: string, sep: char)
    requires sep !in s
    ensures Split(s, sep) == [s]
  {
    if |s| > 0 {
      SplitNoSep(s[1..], sep);
      assert [s[0]] + s[1..] == s;
    }
  }

  /** `sep` occurs in `s` exactly once, at index `i`. */
  predicate OnlySeparatorAt(s: string, sep: char, i: int)
  {
    0 <= i < |s| && s[i] == sep && sep !in s[..i] && sep !in s[i + 1..]
  }

  /** Splitting gives two pieces exactly when `sep` occurs once, and the
      pieces are then the text before and the text after it. */
  lemma {:induction false} SplitInTwo(s: string, sep: char)
    ensures |Split(s, sep)| == 2 ==> OnlySeparatorAt(s, sep, |Split(s, sep)[0]|)
    ensures forall i :: OnlySeparatorAt(s, sep, i) ==> Split(s, sep) == [s[..i], s[i + 1..]]
  {
    var r := Split(s, sep);
    if |r| == 2 {
      assert r[1..] == [r[1]];
      assert Join(r[1..], sep) == r[1];
      assert Join(r, sep) == r[0] + [sep] + Join(r[1..], sep);
      var i := |r[0]|;
      assert s == r[0] + [sep] + r[1];
      assert s[..i] == r[0] && s[i + 1..] == r[1];
    }
    forall i | OnlySeparatorAt(s, sep, i)
      ensures Split(s, sep) == [s[..i], s[i + 1..]]
    {
      assert s == s[..i] + [sep] + s[i + 1..];
      SplitJoin(s[..i], s[i + 1..], sep);
    }
  }

  /** Splitting "a<sep>b" with neither part containing `sep` gives exactly the two parts. */
  lemma {:induction false} SplitJoin(a: string, b: string, sep: char)
    requires sep !in a && sep !in b
    ensures Split(a + [sep] + b, sep) == [a, b]
  {
    var s := a + [sep] + b;
    if |a| == 0 {
      assert s[1..] == b;
      SplitNoSep(b, sep);
    } else {
      assert s[1..] == a[1..] + [sep] + b;
      SplitJoin(a[1..], b, sep);
      assert [a[0]] + a[1..] == a;
    }
  }
}

=== FILE: desktop.dfy ===
/** The desktop tool's codecs. A message is base64-encoded, spelled out as
    8-bit character codes and followed by the end marker; a secret image is
    dumped as 24 bits per pixel and followed by the end marker. Both frames go
    through the legacy embedding loop. */
module Desktop {
  import opened Binary
  import opened Raster
  import opened Results
  import opened Sentinel
  import Base64

  datatype DesktopError =
    | OutOfPixels        // the pixel iterator runs dry while embedding
    | SecretTooLarge     // the size guard of image encoding
    | EmptyChannelSlice  // a trailing group too short to hold a green or blue byte
    | MarkerInSecret     // the corrected encoder: the secret's dump spells the marker

  /** What message decoding hands back: the message, or one of two notices. */
  datatype Reply = Message(bytes: seq<Byte>) | Notice(text: string)

  const DecodingFailed: string := "[Message decoding failed: Invalid encoding]"
  const NoMessageFound: string := "[No hidden message found]"

  // ----- messages -----

  /** The bits a message is written as. */
  function MessageFrame(msg: seq<Byte>): (r: seq<bool>)
    ensures EndsWithMarker(r)
    ensures r[..|r| - 16] == StrToBinary(Base64.Encode(msg))
  {
    var text := StrToBinary(Base64.Encode(msg));
    EndsWithMarkerOf(text);
    assert (text + Marker)[..|text|] == text;
    text + Marker
  }

  /** Base64 text is ASCII, so the marker cannot be read before its end. */
  lemma {:induction false} MessageFrameMarked(msg: seq<Byte>)
    ensures MarkerOnlyAtEnd(MessageFrame(msg))
    ensures |MessageFrame(msg)| == 8 * |Base64.Encode(msg)| + 16
  {
    AsciiHighBitsClear(Base64.Encode(msg));
    NoEarlyMarker(StrToBinary(Base64.Encode(msg)));
  }

  function EncodeMessage(img: seq<Pixel>, msg: seq<Byte>): (r: Result<seq<Pixel>, DesktopError>)
    ensures r.Ok? <==> |MessageFrame(msg)| <= 3 * |img|
    ensures r.Err? ==> r.error == OutOfPixels
    ensures r.Ok? ==> |r.value| == |img| && Carries(r.value, MessageFrame(msg))
    ensures r.Ok? ==> forall i :: 0 <= i < |img| ==> LsbOnly(img[i], r.value[i])
    ensures r.Ok? ==> forall i :: (|MessageFrame(msg)| + 2) / 3 <= i < |img| ==> r.value[i] == img[i]
  {
    match EmbedFrame(img, MessageFrame(msg))
    case None => Err(OutOfPixels)
    case Some(out) => Ok(out)
  }

  /** The text read back: everything before the first marker, taken as 8-bit
      character codes and base64-decoded. */
  function DecodeMessage(img: seq<Pixel>): (r: Reply)
    ensures r == Notice(NoMessageFound) <==> FirstMarker(LsbStream(img)).None?
    ensures r.Notice? ==> r.text == NoMessageFound || r.text == DecodingFailed
  {
    var bits := LsbStream(img);
    match FirstMarker(bits)
    case None => Notice(NoMessageFound)
    case Some(n) =>
      match Base64.Decode(GroupChars(bits[..n], n - 16))
      case None => Notice(DecodingFailed)
      case Some(bytes) => Message(bytes)
  }

  /** Any buffer carrying a message's frame reads back as that message. */
  lemma {:induction false} DecodeCarriedMessage(out: seq<Pixel>, msg: seq<Byte>)
    requires Carries(out, MessageFrame(msg))
    ensures DecodeMessage(out) == Message(msg)
  {
    ReadEncodedText(out, msg);
    Base64.DecodeEncode(msg);
    DecodeEncodedText(out, Base64.Encode(msg), msg);
  }

  /** A buffer whose first marker closes the base64 text of a message decodes
      to that message. */
  lemma {:induction false} DecodeEncodedText(img: seq<Pixel>, text: string, msg: seq<Byte>)
    requires ClosesText(img, text)
    requires Base64.Decode(text) == Some(msg)
    ensures DecodeMessage(img) == Message(msg)
  {
    var bits := LsbStream(img);
    var n := 8 * |text| + 16;
    assert Base64.Decode(GroupChars(bits[..n], n - 16)) == Some(msg);
  }

  /** The first marker of the buffer's LSB stream ends right after the 8-bit
      codes of `text`, and the characters before it are `text`. */
  predicate ClosesText(img: seq<Pixel>, text: string)
  {
    var n := 8 * |text| + 16;
    && n <= |LsbStream(img)|
    && FirstMarker(LsbStream(img)) == Some(n)
    && GroupChars(LsbStream(img)[..n], n - 16) == text
  }

  /** A buffer carrying a message's frame closes that message's base64 text. */
  lemma {:induction false} ReadEncodedText(out: seq<Pixel>, msg: seq<Byte>)
    requires Carries(out, MessageFrame(msg))
    ensures ClosesText(out, Base64.Encode(msg))
  {
    var enc := Base64.Encode(msg);
    assert MessageFrame(msg) == StrToBinary(enc) + Marker;
    ReadAsciiText(out, enc);
  }

  /** A buffer carrying the 8-bit codes of ASCII text and then the marker
      closes that text. */
  lemma {:induction false} ReadAsciiText(out: seq<Pixel>, s: string)
    requires Ascii(s) && Carries(out, StrToBinary(s) + Marker)
    ensures ClosesText(out, s)
  {
    var text := StrToBinary(s);
    assert Latin1(s);
    AsciiHighBitsClear(s);
    ReadText(out, text);
    StrBinaryRoundTrip(s);
  }

  lemma {:induction false} MessageRoundTrip(img: seq<Pixel>, msg: seq<Byte>)
    requires |MessageFrame(msg)| <= 3 * |img|
    ensures EncodeMessage(img, msg).Ok?
    ensures DecodeMessage(EncodeMessage(img, msg).value) == Message(msg)
  {
    DecodeCarriedMessage(EncodeMessage(img, msg).value, msg);
  }

  // ----- images -----

  /** The bits a secret image is written as. */
  function ImageFrame(secret: seq<Pixel>): (r: seq<bool>)
    ensures |r| == 24 * |secret| + 16
  {
    PixelBits(secret) + Marker
  }

  /** Image encoding as written: the size guard asks for three carrier pixels
      per secret pixel, while the frame needs eight and a third, plus six for
      the marker; in between the pixel iterator runs dry. */
  function EncodeImage(carrier: seq<Pixel>, secret: seq<Pixel>): (r: Result<seq<Pixel>, DesktopError>)
    ensures r == Err(SecretTooLarge) <==> 3 * |secret| > |carrier|
    ensures r == Err(OutOfPixels) <==> 3 * |secret| <= |carrier| && 3 * |carrier| < 24 * |secret| + 16
    ensures r.Err? ==> r.error == SecretTooLarge || r.error == OutOfPixels
    ensures r.Ok? ==> |r.value| == |carrier| && Carries(r.value, ImageFrame(secret))
    ensures r.Ok? ==> forall i :: 0 <= i < |carrier| ==> LsbOnly(carrier[i], r.value[i])
    ensures r.Ok? ==> forall i :: 8 * |secret| + 6 <= i < |carrier| ==> r.value[i] == carrier[i]
  {
    if 3 * |secret| > |carrier| then Err(SecretTooLarge)
    else
      match EmbedFrame(carrier, ImageFrame(secret))
      case None => Err(OutOfPixels)
      case Some(out) => Ok(out)
  }

  /** A carrier of exactly three pixels per secret pixel passes the guard and
      still cannot hold the frame. */
  lemma {:induction false} GuardAdmitsOverflow(carrier: seq<Pixel>, secret: seq<Pixel>)
    requires |carrier| == 3 * |secret|
    ensures EncodeImage(carrier, secret) == Err(OutOfPixels)
  {
  }

  /** Image encoding with the guard the frame needs: a secret is refused
      exactly when its frame does not fit, and the iterator never runs dry. */
  function EncodeImageChecked(carrier: seq<Pixel>, secret: seq<Pixel>): (r: Result<seq<Pixel>, DesktopError>)
    ensures r.Err? <==> 3 * |carrier| < 24 * |secret| + 16
    ensures r.Err? ==> r.error == SecretTooLarge
    ensures r.Ok? ==> |r.value| == |carrier| && Carries(r.value, ImageFrame(secret))
    ensures r.Ok? ==> forall i :: 0 <= i < |carrier| ==> LsbOnly(carrier[i], r.value[i])
    ensures r.Ok? ==> forall i :: 8 * |secret| + 6 <= i < |carrier| ==> r.value[i] == carrier[i]
  {
    if 3 * |carrier| < 24 * |secret| + 16 then Err(SecretTooLarge)
    else
      match EmbedFrame(carrier, ImageFrame(secret))
      case None => Err(OutOfPixels)
      case Some(out) => Ok(out)
  }

  /** Where both accept a secret they write the same pixels. */
  lemma {:induction false} CheckedAgrees(carrier: seq<Pixel>, secret: seq<Pixel>)
    requires EncodeImageChecked(carrier, secret).Ok?
    ensures EncodeImage(carrier, secret) == EncodeImageChecked(carrier, secret)
  {
  }

  /** The channel loop of image decoding over one pixel from channel `c` on:
      each LSB is appended, and reading the marker breaks out of this loop
      only, dropping the pixel's remaining channels. */
  function ScanPixel(p: Pixel, acc: seq<bool>, c: nat): (r: seq<bool>)
    requires c <= 3
    ensures |acc| <= |r| <= |acc| + 3 - c && r[..|acc|] == acc
    decreases 3 - c
  {
    if c == 3 then acc
    else
      var next := acc + [Lsb(Channel(p, c))];
      if EndsWithMarker(next) then next else ScanPixel(p, next, c + 1)
  }

  /** The pixel loop of image decoding: it carries on to the last pixel,
      whatever the channel loop met. */
  function ScanWithBreak(img: seq<Pixel>, acc: seq<bool>): (r: seq<bool>)
    ensures |acc| <= |r| <= |acc| + 3 * |img| && r[..|acc|] == acc
    decreases |img|
  {
    if |img| == 0 then acc else ScanWithBreak(img[1..], ScanPixel(img[0], acc, 0))
  }

  /** The three channel LSBs of one pixel, in the order the loops read them. */
  function PixelLsbs(p: Pixel): (r: seq<bool>)
    ensures |r| == 3 && forall c :: 0 <= c < 3 ==> r[c] == Lsb(Channel(p, c))
  {
    [Lsb(p.0), Lsb(p.1), Lsb(p.2)]
  }

  /** Up to the first marker the channel loop reads exactly the pixel's LSBs,
      and it stops right on a marker. */
  lemma {:induction false} PixelScanPrefix(p: Pixel, acc: seq<bool>, c: nat, t: nat)
    requires c < 3 && |acc| < t <= |acc| + 3 - c
    requires NoMarkerUpTo(acc + PixelLsbs(p)[c..], t - 1)
    ensures |ScanPixel(p, acc, c)| >= t
    ensures ScanPixel(p, acc, c)[..t] == (acc + PixelLsbs(p)[c..])[..t]
    ensures EndsWithMarker((acc + PixelLsbs(p)[c..])[..t]) ==>
      ScanPixel(p, acc, c) == (acc + PixelLsbs(p)[c..])[..t]
    decreases 3 - c
  {
    var tail := PixelLsbs(p)[c + 1..];
    var f := acc + PixelLsbs(p)[c..];
    var next := acc + [Lsb(Channel(p, c))];
    assert PixelLsbs(p)[c..] == [Lsb(Channel(p, c))] + tail;
    assert f == next + tail;
    assert f[..|acc| + 1] == next;
    if EndsWithMarker(next) {
      assert t - 1 < |acc| + 1;
      assert ScanPixel(p, acc, c) == next;
    } else {
      assert ScanPixel(p, acc, c) == ScanPixel(p, next, c + 1);
      if t > |acc| + 1 {
        PixelScanPrefix(p, next, c + 1, t);
      }
    }
  }

  /** The channel loop over the first pixel, seen against the whole stream. */
  lemma {:induction false} FirstPixelScan(img: seq<Pixel>, acc: seq<bool>, t: nat)
    requires |img| > 0 && |acc| < t
    requires NoMarkerUpTo(acc + LsbStream(img), Min(t, |acc| + 3) - 1)
    ensures acc + LsbStream(img) == (acc + PixelLsbs(img[0])) + LsbStream(img[1..])
    ensures |ScanPixel(img[0], acc, 0)| >= Min(t, |acc| + 3)
    ensures ScanPixel(img[0], acc, 0)[..Min(t, |acc| + 3)] == (acc + LsbStream(img))[..Min(t, |acc| + 3)]
    ensures t <= |acc| + 3 && EndsWithMarker((acc + LsbStream(img))[..t]) ==>
      ScanPixel(img[0], acc, 0) == (acc + LsbStream(img))[..t]
    ensures t > |acc| + 3 ==> ScanPixel(img[0], acc, 0) == acc + PixelLsbs(img[0])
  {
    var f := acc + LsbStream(img);
    var head := PixelLsbs(img[0]);
    assert LsbStream(img) == head + LsbStream(img[1..]);
    assert f == (acc + head) + LsbStream(img[1..]);
    assert head[0..] == head;
    var t1 := Min(t, |acc| + 3);
    assert f[..t1 - 1] == (acc + head)[..t1 - 1];
    NoMarkerShared(f, acc + head, t1 - 1);
    PixelScanPrefix(img[0], acc, 0, t1);
    var r := ScanPixel(img[0], acc, 0);
    assert (acc + head)[..t1] == f[..t1];
    assert r[..t1] == f[..t1];
    if t > |acc| + 3 {
      assert t1 == |acc + head| && |r| == t1;
      assert r == r[..t1] && (acc + head)[..t1] == acc + head;
    }
  }

  /** Up to the first marker the scan reads exactly the LSB stream; when the
      marker ends in the last pixel, that is all it reads. */
  lemma {:induction false} ScanPrefix(img: seq<Pixel>, acc: seq<bool>, t: nat)
    requires |acc| < t <= |acc| + 3 * |img|
    requires NoMarkerUpTo(acc + LsbStream(img), t - 1)
    ensures |ScanWithBreak(img, acc)| >= t
    ensures ScanWithBreak(img, acc)[..t] == (acc + LsbStream(img))[..t]
    ensures |acc| + 3 * |img| < t + 3 && EndsWithMarker((acc + LsbStream(img))[..t]) ==>
      ScanWithBreak(img, acc) == (acc + LsbStream(img))[..t]
    decreases |img|
  {
    var f := acc + LsbStream(img);
    FirstPixelScan(img, acc, t);
    var next := ScanPixel(img[0], acc, 0);
    if t <= |acc| + 3 {
      assert ScanWithBreak(img, acc)[..|next|] == next;
    } else {
      assert next + LsbStream(img[1..]) == f;
      ScanPrefix(img[1..], next, t);
    }
  }

  /** The same, for the scan from its start. */
  lemma {:induction false} ScanReadsStream(img: seq<Pixel>, t: nat)
    requires 0 < t <= 3 * |img| && NoMarkerUpTo(LsbStream(img), t - 1)
    ensures |ScanWithBreak(img, [])| >= t
    ensures ScanWithBreak(img, [])[..t] == LsbStream(img)[..t]
    ensures 3 * |img| < t + 3 && EndsWithMarker(LsbStream(img)[..t]) ==>
      ScanWithBreak(img, []) == LsbStream(img)[..t]
  {
    AppendEmpty(LsbStream(img));
    ScanPrefix(img, [], t);
  }

  /** Without a marker anywhere the scan reads the whole LSB stream. */
  lemma {:induction false} ScanWithoutMarker(img: seq<Pixel>)
    requires FirstMarker(LsbStream(img)).None?
    ensures ScanWithBreak(img, []) == LsbStream(img)
  {
    var s := LsbStream(img);
    if |img| > 0 {
      assert NoMarkerUpTo(s, |s| - 1);
      ScanReadsStream(img, |s|);
      assert ScanWithBreak(img, [])[..|s|] == ScanWithBreak(img, []);
    }
  }

  lemma {:induction false} ScanAppend(a: seq<Pixel>, b: seq<Pixel>, acc: seq<bool>)
    ensures ScanWithBreak(a + b, acc) == ScanWithBreak(b, ScanWithBreak(a, acc))
    decreases |a|
  {
    if |a| > 0 {
      assert (a + b)[0] == a[0] && (a + b)[1..] == a[1..] + b;
      ScanAppend(a[1..], b, ScanPixel(a[0], acc, 0));
    } else {
      assert a + b == b;
    }
  }

  /** Everything but the last sixteen bits (nothing when there are fewer). */
  function DropLast16(bits: seq<bool>): (r: seq<bool>)
    ensures |r| == if |bits| >= 16 then |bits| - 16 else 0
    ensures r == bits[..|r|]
  {
    if |bits| >= 16 then bits[..|bits| - 16] else []
  }

  /** The pixels read from every 24 bits, the last group possibly short: the
      blue byte may be shorter than eight bits, but a group too short to
      reach it fails on an empty slice. */
  function Triples(bits: seq<bool>): (r: Option<seq<Pixel>>)
    ensures r.Some? ==> |r.value| == (|bits| + 23) / 24
    decreases |bits|
  {
    if |bits| == 0 then Some([])
    else if |bits| <= 16 then None
    else
      GroupCount(|bits|);
      match Triples(bits[Min(24, |bits|)..])
      case None => None
      case Some(rest) => Some([LeadingPixel(bits)] + rest)
  }

  /** Reading fails exactly when the last group is 1 to 16 bits long; every
      group gives one pixel. */
  lemma {:induction false} TriplesDefined(bits: seq<bool>)
    ensures Triples(bits).Some? <==> bits == [] || |bits| % 24 == 0 || |bits| % 24 > 16
    ensures Triples(bits).Some? ==> |Triples(bits).value| == (|bits| + 23) / 24
    decreases |bits|
  {
    if |bits| > 16 {
      var rest := bits[Min(24, |bits|)..];
      GroupCount(|bits|);
      TriplesDefined(rest);
      assert Triples(bits).Some? <==> Triples(rest).Some?;
      if |bits| >= 24 {
        assert |rest| == |bits| - 24;
      } else {
        assert rest == [];
      }
    }
  }

  lemma {:induction false} GroupCount(n: nat)
    requires n > 16
    ensures n >= 24 ==> (n - 24) % 24 == n % 24 && (n - 24 + 23) / 24 + 1 == (n + 23) / 24
    ensures n < 24 ==> n % 24 > 16 && (n + 23) / 24 == 1
  {
  }

  /** The pixel read from the first group: red and green from eight bits
      each, blue from the up to eight bits that follow. */
  function LeadingPixel(bits: seq<bool>): (p: Pixel)
    requires |bits| > 16
    ensures |bits| >= 24 ==> p == ReadPixel(bits)
    ensures |bits| < 24 ==>
              && Format(p.0, 8) == bits[..8] && Format(p.1, 8) == bits[8..16]
              && ToBits(p.2, |bits| - 16) == bits[16..]
  {
    if |bits| >= 24 then ReadPixel(bits)
    else
      assert Pow2(8) == 256;
      Pow2Monotone(|bits| - 16, 8);
      FormatFromBits8(bits[..8]);
      FormatFromBits8(bits[8..16]);
      ToFromBits(bits[16..]);
      (FromBits(bits[..8]), FromBits(bits[8..16]), FromBits(bits[16..]))
  }

  /** `px` read in front of whatever `o` holds, failure passing through. */
  function Prepend(px: seq<Pixel>, o: Option<seq<Pixel>>): Option<seq<Pixel>>
  {
    match o
    case None => None
    case Some(t) => Some(px + t)
  }

  lemma {:induction false} PrependTwice(a: seq<Pixel>, b: seq<Pixel>, o: Option<seq<Pixel>>)
    ensures Prepend(a, Prepend(b, o)) == Prepend(a + b, o)
  {
    if o.Some? {
      assert a + (b + o.value) == (a + b) + o.value;
    }
  }

  lemma {:induction false} PrependNothing(o: Option<seq<Pixel>>)
    ensures Prepend([], o) == o
  {
    if o.Some? {
      assert [] + o.value == o.value;
    }
  }

  /** One pixel's 24 bits read back as that pixel. */
  lemma {:induction false} TriplesCons(p: Pixel, tail: seq<bool>)
    ensures Triples(PixelByteBits(p) + tail) == Prepend([p], Triples(tail))
  {
    var bits := PixelByteBits(p) + tail;
    assert bits[24..] == tail;
    ReadPixelByteBits(p, tail);
  }

  /** A pixel dump reads back as its pixels, followed by whatever the rest reads as. */
  lemma {:induction false} TriplesOfPixelBits(px: seq<Pixel>, rest: seq<bool>)
    ensures Triples(PixelBits(px) + rest) == Prepend(px, Triples(rest))
    decreases |px|
  {
    if |px| > 0 {
      var tail := PixelBits(px[1..]) + rest;
      PixelBitsCons(px, rest);
      TriplesOfPixelBits(px[1..], rest);
      TriplesCons(px[0], tail);
      PrependTwice([px[0]], px[1..], Triples(rest));
      PixelsCons(px);
    } else {
      assert PixelBits(px) + rest == rest by {
        assert PixelBits(px) == [];
      }
      PrependNothing(Triples(rest));
    }
  }

  const Black: Pixel := (0, 0, 0)

  /** A new black image of the given size with the first pixels read put in. */
  function Fill(px: seq<Pixel>, width: nat, height: nat): (r: Picture)
    ensures WellFormed(r) && r.width == width && r.height == height
    ensures forall i :: 0 <= i < |r.pixels| ==> r.pixels[i] == if i < |px| then px[i] else Black
  {
    var n := width * height;
    var k := Min(n, |px|);
    Picture(width, height, px[..k] + seq(n - k, _ => Black))
  }

  /** Steps 3 to 5 of image decoding: the bits read become pixels put into a
      new image of the given size. */
  function ToPicture(bits: seq<bool>, width: nat, height: nat): (r: Result<Picture, DesktopError>)
    ensures r.Err? ==> r.error == EmptyChannelSlice
    ensures r.Ok? ==> WellFormed(r.value) && r.value.width == width && r.value.height == height
  {
    match Triples(bits)
    case None => Err(EmptyChannelSlice)
    case Some(px) => Ok(Fill(px, width, height))
  }

  /** The dump of exactly an image's pixels becomes that image. */
  lemma {:induction false} PixelsToPicture(px: seq<Pixel>, width: nat, height: nat)
    requires |px| == width * height
    ensures ToPicture(PixelBits(px), width, height) == Ok(Picture(width, height, px))
  {
    TriplesExact(px);
    FillExact(px, width, height);
  }

  /** Image decoding as written, for a caller-supplied size. */
  function DecodeImage(img: seq<Pixel>, width: nat, height: nat): (r: Result<Picture, DesktopError>)
    ensures r.Err? ==> r.error == EmptyChannelSlice
    ensures r.Ok? ==> WellFormed(r.value) && r.value.width == width && r.value.height == height
  {
    ToPicture(DropLast16(ScanWithBreak(img, [])), width, height)
  }

  /** Decoding fails exactly when the kept bits end in a group of one to
      sixteen bits, too short for the channel slices of a pixel. */
  lemma {:induction false} DecodeImageFails(img: seq<Pixel>, width: nat, height: nat)
    ensures var kept := DropLast16(ScanWithBreak(img, []));
      DecodeImage(img, width, height).Err? <==> 1 <= |kept| % 24 <= 16
  {
    TriplesDefined(DropLast16(ScanWithBreak(img, [])));
  }

  /** Without a marker the whole LSB stream but its last sixteen bits is read
      as pixels, and decoding fails exactly on a short trailing group. */
  lemma {:induction false} DecodeImageWithoutMarker(img: seq<Pixel>, width: nat, height: nat)
    requires FirstMarker(LsbStream(img)).None?
    ensures DecodeImage(img, width, height).Err? <==> 1 <= |DropLast16(LsbStream(img))| % 24 <= 16
  {
    ScanWithoutMarker(img);
    TriplesDefined(DropLast16(LsbStream(img)));
  }

  lemma {:induction false} DropFrame(scan: seq<bool>, text: seq<bool>)
    requires |scan| >= |text| + 16 && scan[..|text| + 16] == text + Marker
    ensures |DropLast16(scan)| >= |text|
    ensures DropLast16(scan) == text + DropLast16(scan)[|text|..]
  {
    var d := DropLast16(scan);
    assert d[..|text|] == scan[..|text| + 16][..|text|];
    assert d == d[..|text|] + d[|text|..];
  }

  /** The secret's bits lead the scan of a buffer carrying its frame. */
  lemma {:induction false} ScannedFrame(out: seq<Pixel>, secret: seq<Pixel>)
    requires Carries(out, ImageFrame(secret)) && MarkerOnlyAtEnd(ImageFrame(secret))
    ensures |DropLast16(ScanWithBreak(out, []))| >= 24 * |secret|
    ensures DropLast16(ScanWithBreak(out, [])) ==
      PixelBits(secret) + DropLast16(ScanWithBreak(out, []))[24 * |secret|..]
  {
    var frame := ImageFrame(secret);
    FindFrame(out, frame);
    ScanReadsStream(out, |frame|);
    DropFrame(ScanWithBreak(out, []), PixelBits(secret));
  }

  /** Decoding a buffer that carries a secret image, of the secret's size,
      gives the secret back, unless the bits read after the marker leave a
      short trailing group. */
  lemma {:induction false} DecodeCarriedImage(out: seq<Pixel>, secret: seq<Pixel>, width: nat, height: nat)
    requires Carries(out, ImageFrame(secret)) && MarkerOnlyAtEnd(ImageFrame(secret))
    requires |secret| == width * height
    ensures DecodeImage(out, width, height) == Ok(Picture(width, height, secret))
         || DecodeImage(out, width, height) == Err(EmptyChannelSlice)
  {
    ScannedFrame(out, secret);
    var d := DropLast16(ScanWithBreak(out, []));
    TriplesOfPixelBits(secret, d[24 * |secret|..]);
    var r := DecodeImage(out, width, height);
    if r.Ok? {
      assert r.value.pixels == secret;
    }
  }

  /** A secret of dark pixels (every channel below 128) never shows the marker early. */
  lemma {:induction false} DarkFrameMarked(secret: seq<Pixel>)
    requires Dark(secret)
    ensures MarkerOnlyAtEnd(ImageFrame(secret))
  {
    DarkHighBitsClear(secret);
    NoEarlyMarker(PixelBits(secret));
  }

  lemma {:induction false} ImageRoundTrip(carrier: seq<Pixel>, secret: seq<Pixel>, width: nat, height: nat)
    requires EncodeImage(carrier, secret).Ok?
    requires MarkerOnlyAtEnd(ImageFrame(secret)) && |secret| == width * height
    ensures var out := EncodeImage(carrier, secret).value;
      DecodeImage(out, width, height) == Ok(Picture(width, height, secret))
      || DecodeImage(out, width, height) == Err(EmptyChannelSlice)
  {
    DecodeCarriedImage(EncodeImage(carrier, secret).value, secret, width, height);
  }

  /** Image decoding that stops reading at the first marker, as the `break`
      is evidently meant to; without a marker it reads what the code as
      written reads. */
  function DecodeImageAtMarker(img: seq<Pixel>, width: nat, height: nat): (r: Result<Picture, DesktopError>)
    ensures r.Err? ==> r.error == EmptyChannelSlice
    ensures r.Ok? ==> WellFormed(r.value) && r.value.width == width && r.value.height == height
  {
    var s := LsbStream(img);
    var bits := match FirstMarker(s)
      case Some(n) => s[..n - 16]
      case None => DropLast16(s);
    ToPicture(bits, width, height)
  }

  /** Where no marker is read the two decoders agree. */
  lemma {:induction false} AtMarkerWithoutMarker(img: seq<Pixel>, width: nat, height: nat)
    requires FirstMarker(LsbStream(img)).None?
    ensures DecodeImageAtMarker(img, width, height) == DecodeImage(img, width, height)
  {
    ScanWithoutMarker(img);
  }

  /** Decoding at the marker gives back every secret image whose frame a
      buffer carries. */
  lemma {:induction false} DecodeCarriedImageAtMarker(out: seq<Pixel>, secret: seq<Pixel>, width: nat, height: nat)
    requires Carries(out, ImageFrame(secret)) && MarkerOnlyAtEnd(ImageFrame(secret))
    requires |secret| == width * height
    ensures DecodeImageAtMarker(out, width, height) == Ok(Picture(width, height, secret))
  {
    var frame := ImageFrame(secret);
    FindFrame(out, frame);
    FramePixels(LsbStream(out), secret);
    PixelsToPicture(secret, width, height);
  }

  lemma {:induction false} FramePixels(s: seq<bool>, secret: seq<Pixel>)
    requires |ImageFrame(secret)| <= |s| && s[..|ImageFrame(secret)|] == ImageFrame(secret)
    ensures s[..|ImageFrame(secret)| - 16] == PixelBits(secret)
  {
    var frame := ImageFrame(secret);
    assert s[..|frame| - 16] == frame[..|frame| - 16];
  }

  lemma {:induction false} TriplesExact(px: seq<Pixel>)
    ensures Triples(PixelBits(px)) == Some(px)
  {
    TriplesOfPixelBits(px, []);
    AppendEmpty(PixelBits(px));
    assert px + [] == px;
  }

  /** A pixel list of exactly the image's size fills it. */
  lemma {:induction false} FillExact(px: seq<Pixel>, width: nat, height: nat)
    requires |px| == width * height
    ensures Fill(px, width, height) == Picture(width, height, px)
  {
    assert px[..|px|] + [] == px;
  }

  lemma {:induction false} ImageRoundTripAtMarker(carrier: seq<Pixel>, secret: seq<Pixel>, width: nat, height: nat)
    requires EncodeImageChecked(carrier, secret).Ok?
    requires MarkerOnlyAtEnd(ImageFrame(secret)) && |secret| == width * height
    ensures DecodeImageAtMarker(EncodeImageChecked(carrier, secret).value, width, height)
         == Ok(Picture(width, height, secret))
  {
    DecodeCarriedImageAtMarker(EncodeImageChecked(carrier, secret).value, secret, width, height);
  }

  /** Every channel of the pixel is even. */
  predicate ClearLsbs(p: Pixel)
  {
    !Lsb(p.0) && !Lsb(p.1) && !Lsb(p.2)
  }

  /** After the marker, three clear LSBs never complete another marker. */
  lemma {:induction false} ScanPixelClear(q: Pixel, frame: seq<bool>)
    requires EndsWithMarker(frame)
    requires ClearLsbs(q)
    ensures ScanPixel(q, frame, 0) == frame + [false, false, false]
  {
    var n := |frame|;
    assert frame[n - 1] == Marker[15];
    var a := frame + [false];
    assert a[|a| - 16..][14] == frame[n - 1];
    var b := a + [false];
    assert b[|b| - 16..][13] == frame[n - 1];
    var c := b + [false];
    assert c == frame + [false, false, false];
  }

  /** The code as written: a secret whose frame ends one pixel before the
      carrier's last pixel, that pixel having clear LSBs, is read with three
      bits too many after the marker, so the last group is short and decoding
      fails; decoding at the marker gives the secret back. */
  lemma {:induction false} TrailingPixelBreaksDecode(out: seq<Pixel>, secret: seq<Pixel>, width: nat, height: nat)
    requires |secret| == width * height && MarkerOnlyAtEnd(ImageFrame(secret))
    requires Carries(out, ImageFrame(secret)) && |out| == 8 * |secret| + 7
    requires ClearLsbs(out[|out| - 1])
    ensures DecodeImage(out, width, height) == Err(EmptyChannelSlice)
    ensures DecodeImageAtMarker(out, width, height) == Ok(Picture(width, height, secret))
  {
    var frame := ImageFrame(secret);
    ScanTrailingPixel(out, frame);
    var d := DropLast16(frame + [false, false, false]);
    ThreeOver(|secret|, |d|);
    TriplesDefined(d);
    DecodeCarriedImageAtMarker(out, secret, width, height);
  }

  lemma {:induction false} ThreeOver(s: nat, n: nat)
    requires n == 24 * s + 3
    ensures n % 24 == 3
  {
  }

  /** A buffer one pixel longer than its frame needs, read with the scan as
      written: the frame, then the LSBs of the extra pixel. */
  lemma {:induction false} ScanTrailingPixel(out: seq<Pixel>, frame: seq<bool>)
    requires MarkerOnlyAtEnd(frame) && Carries(out, frame)
    requires 3 * |out| == |frame| + 5 && ClearLsbs(out[|out| - 1])
    ensures ScanWithBreak(out, []) == frame + [false, false, false]
  {
    var m := |out| - 1;
    var front, q := out[..m], out[m];
    assert out == front + [q];
    assert Carries(front, frame) by {
      LsbStreamAppend(front, [q]);
      assert LsbStream(front)[..|frame|] == LsbStream(out)[..|frame|];
    }
    ScanWholeFrame(front, frame);
    ScanAppend(front, [q], []);
    assert ScanWithBreak([q], frame) == ScanPixel(q, frame, 0);
    ScanPixelClear(q, frame);
  }

  /** A buffer whose last pixel holds the end of the frame is read exactly up
      to the marker. */
  lemma {:induction false} ScanWholeFrame(img: seq<Pixel>, frame: seq<bool>)
    requires MarkerOnlyAtEnd(frame) && Carries(img, frame) && 3 * |img| < |frame| + 3
    ensures ScanWithBreak(img, []) == frame
  {
    FindFrame(img, frame);
    ScanReadsStream(img, |frame|);
  }

  /** The same from the carrier: a dark secret in a carrier eight pixels per
      secret pixel plus seven, whose last pixel has clear LSBs, is encoded
      but cannot be decoded. */
  lemma {:induction false} TrailingPixelRoundTrip(carrier: seq<Pixel>, secret: seq<Pixel>, width: nat, height: nat)
    requires |secret| == width * height && Dark(secret)
    requires |carrier| == 8 * |secret| + 7
    requires ClearLsbs(carrier[|carrier| - 1])
    ensures EncodeImage(carrier, secret).Ok?
    ensures DecodeImage(EncodeImage(carrier, secret).value, width, height) == Err(EmptyChannelSlice)
  {
    DarkFrameMarked(secret);
    assert 3 * |secret| <= |carrier| && 3 * |carrier| == 24 * |secret| + 21;
    var out := EncodeImage(carrier, secret).value;
    assert |out| - 1 == 8 * |secret| + 6;
    assert out[|out| - 1] == carrier[|carrier| - 1];
    TrailingPixelBreaksDecode(out, secret, width, height);
  }

  // ----- secrets whose dump spells the marker -----

  /** A bit string ending in 1 does not end with the marker. */
  lemma {:induction false} EndsInOne(bits: seq<bool>)
    requires |bits| > 0 && bits[|bits| - 1]
    ensures !EndsWithMarker(bits)
  {
    if |bits| >= 16 {
      assert bits[|bits| - 16..][15] == bits[|bits| - 1];
    }
  }

  /** Nor does one whose last bit but one is 0. */
  lemma {:induction false} EndsAfterZero(bits: seq<bool>)
    requires |bits| >= 2 && !bits[|bits| - 2]
    ensures !EndsWithMarker(bits)
  {
    if |bits| >= 16 {
      assert bits[|bits| - 16..][14] == bits[|bits| - 2];
    }
  }

  /** A pixel none of whose three LSBs completes the marker is read whole. */
  lemma {:induction false} ScanPixelWhole(p: Pixel, acc: seq<bool>)
    requires !EndsWithMarker(acc + [Lsb(p.0)])
    requires !EndsWithMarker(acc + [Lsb(p.0)] + [Lsb(p.1)])
    requires !EndsWithMarker(acc + [Lsb(p.0)] + [Lsb(p.1)] + [Lsb(p.2)])
    ensures ScanPixel(p, acc, 0) == acc + PixelLsbs(p)
  {
    var n1 := acc + [Lsb(p.0)];
    var n2 := n1 + [Lsb(p.1)];
    var n3 := n2 + [Lsb(p.2)];
    assert ScanPixel(p, n2, 2) == n3;
    assert ScanPixel(p, n1, 1) == n3;
    assert n3 == acc + PixelLsbs(p);
  }

  /** LSBs that are all 1 are read in full. */
  lemma {:induction false} ScanOnes(img: seq<Pixel>, acc: seq<bool>)
    requires forall k :: 0 <= k < |LsbStream(img)| ==> LsbStream(img)[k]
    ensures ScanWithBreak(img, acc) == acc + LsbStream(img)
    decreases |img|
  {
    if |img| == 0 {
      AppendEmpty(acc);
    } else {
      var p, head := img[0], PixelLsbs(img[0]);
      assert LsbStream(img) == head + LsbStream(img[1..]);
      assert head[0] && head[1] && head[2] by {
        assert LsbStream(img)[0] && LsbStream(img)[1] && LsbStream(img)[2];
      }
      EndsInOne(acc + [Lsb(p.0)]);
      EndsInOne(acc + [Lsb(p.0)] + [Lsb(p.1)]);
      EndsInOne(acc + [Lsb(p.0)] + [Lsb(p.1)] + [Lsb(p.2)]);
      ScanPixelWhole(p, acc);
      assert forall k :: 0 <= k < |LsbStream(img[1..])| ==> LsbStream(img[1..])[k] by {
        forall k | 0 <= k < |LsbStream(img[1..])|
          ensures LsbStream(img[1..])[k]
        {
          assert LsbStream(img)[k + 3] == LsbStream(img[1..])[k];
        }
      }
      ScanOnes(img[1..], acc + head);
      AppendAssoc(acc, head, LsbStream(img[1..]));
    }
  }

  /** LSBs that are all 0, read after a 0, are read in full. */
  lemma {:induction false} ScanZeros(img: seq<Pixel>, acc: seq<bool>)
    requires |acc| > 0 && !acc[|acc| - 1]
    requires forall k :: 0 <= k < |LsbStream(img)| ==> !LsbStream(img)[k]
    ensures ScanWithBreak(img, acc) == acc + LsbStream(img)
    decreases |img|
  {
    if |img| == 0 {
      AppendEmpty(acc);
    } else {
      var p, head := img[0], PixelLsbs(img[0]);
      assert LsbStream(img) == head + LsbStream(img[1..]);
      assert !head[0] && !head[1] && !head[2] by {
        assert !LsbStream(img)[0] && !LsbStream(img)[1] && !LsbStream(img)[2];
      }
      EndsAfterZero(acc + [Lsb(p.0)]);
      EndsAfterZero(acc + [Lsb(p.0)] + [Lsb(p.1)]);
      EndsAfterZero(acc + [Lsb(p.0)] + [Lsb(p.1)] + [Lsb(p.2)]);
      ScanPixelWhole(p, acc);
      assert forall k :: 0 <= k < |LsbStream(img[1..])| ==> !LsbStream(img[1..])[k] by {
        forall k | 0 <= k < |LsbStream(img[1..])|
          ensures !LsbStream(img[1..])[k]
        {
          assert LsbStream(img)[k + 3] == LsbStream(img[1..])[k];
        }
      }
      ScanZeros(img[1..], acc + head);
      AppendAssoc(acc, head, LsbStream(img[1..]));
    }
  }

  /** The stream of a run of pixels is the matching run of the stream. */
  lemma {:induction false} LsbStreamSlice(img: seq<Pixel>, a: nat, b: nat)
    requires a <= b <= |img|
    ensures LsbStream(img[a..b]) == LsbStream(img)[3 * a..3 * b]
  {
    assert img == img[..a] + img[a..b] + img[b..];
    LsbStreamAppend(img[..a] + img[a..b], img[b..]);
    LsbStreamAppend(img[..a], img[a..b]);
  }

  const Ones15: seq<bool> := seq(15, _ => true)
  const Zeros6: seq<bool> := seq(6, _ => false)

  /** The frame of the secret pixel (255, 255, 64): sixteen ones, the bits 0
      and 1, six zeros, then the marker. Its first seventeen bits already end
      with the marker. */
  lemma SpelledFrame()
    ensures ImageFrame([(255, 255, 64)]) == [true] + Ones15 + [false, true] + Zeros6 + Marker
  {
    var p: Pixel := (255, 255, 64);
    var ones8: seq<bool> := seq(8, _ => true);
    var low := [false, true] + Zeros6;
    assert PixelBits([p]) == PixelByteBits(p) by {
      assert [p][1..] == [];
      AppendEmpty(PixelByteBits(p));
    }
    ByteAllOnes();
    ByteSixtyFour();
    assert PixelByteBits(p) == (ones8 + ones8) + low;
    SixteenOnes();
    AppendAssoc([true] + Ones15, [false, true], Zeros6);
  }

  /** 255 in eight binary digits. */
  lemma ByteAllOnes()
    ensures Format(255, 8) == seq(8, _ => true)
  {
    assert Pow2(8) == 256;
    ToBitsOnes(8);
  }

  /** 64 in eight binary digits. */
  lemma ByteSixtyFour()
    ensures Format(64, 8) == [false, true] + Zeros6
  {
    assert Pow2(8) == 256;
    assert ToBits(1, 2) == [false, true];
    assert ToBits(2, 3) == ToBits(1, 2) + [false];
    assert ToBits(4, 4) == ToBits(2, 3) + [false];
    assert ToBits(8, 5) == ToBits(4, 4) + [false];
    assert ToBits(16, 6) == ToBits(8, 5) + [false];
    assert ToBits(32, 7) == ToBits(16, 6) + [false];
  }

  lemma SixteenOnes()
    ensures seq(8, _ => true) + seq(8, _ => true) == [true] + Ones15
  {
  }

  /** What the scan as written reads from a fourteen-pixel buffer carrying
      that frame: up to the marker inside the secret, then, skipping the blue
      LSB of that pixel, on to the real marker. */
  lemma {:induction false} SpelledScan(out: seq<Pixel>)
    requires |out| == 14 && Carries(out, ImageFrame([(255, 255, 64)]))
    ensures ScanWithBreak(out, []) == [true] + Marker + Zeros6 + Marker
  {
    SpelledRuns(out);
    var p1, q5, p2, p3, q13 := out[..5], out[5], out[6..8], out[8..13], out[13];
    FourteenSplit(out);
    ScanRuns(p1, q5, p2, p3, q13);
  }

  /** A fourteen-pixel buffer cut where those runs begin and end. */
  lemma {:induction false} FourteenSplit<T>(out: seq<T>)
    requires |out| == 14
    ensures out == out[..5] + ([out[5]] + (out[6..8] + (out[8..13] + [out[13]])))
  {
    assert out[8..] == out[8..13] + [out[13]];
    assert out[6..] == out[6..8] + out[8..];
    assert out[5..] == [out[5]] + out[6..];
    assert out == out[..5] + out[5..];
  }

  /** The LSB runs a buffer carrying that frame holds, pixel range by pixel range. */
  lemma {:induction false} SpelledRuns(out: seq<Pixel>)
    requires |out| == 14 && Carries(out, ImageFrame([(255, 255, 64)]))
    ensures LsbStream(out[..5]) == Ones15 && LsbStream(out[6..8]) == Zeros6
    ensures LsbStream(out[8..13]) == Ones15
    ensures Lsb(out[5].0) && !Lsb(out[5].1) && !Lsb(out[13].0)
  {
    var f := ImageFrame([(255, 255, 64)]);
    SpelledFrame();
    SpelledParts(f);
    var s := LsbStream(out);
    LsbStreamSlice(out, 0, 5);
    assert out[0..5] == out[..5];
    PrefixSlice(s, f, 0, 15);
    LsbStreamSlice(out, 6, 8);
    PrefixSlice(s, f, 18, 24);
    LsbStreamSlice(out, 8, 13);
    PrefixSlice(s, f, 24, 39);
    SpelledBits(out);
  }

  /** The three single LSBs around those runs. */
  lemma {:induction false} SpelledBits(out: seq<Pixel>)
    requires |out| == 14 && Carries(out, ImageFrame([(255, 255, 64)]))
    ensures Lsb(out[5].0) && !Lsb(out[5].1) && !Lsb(out[13].0)
  {
    var f := ImageFrame([(255, 255, 64)]);
    SpelledFrame();
    SpelledParts(f);
    LsbStreamAt(out, 5, 0);
    LsbStreamAt(out, 5, 1);
    LsbStreamAt(out, 13, 0);
    CarriedBit(out, f, 15);
    CarriedBit(out, f, 16);
    CarriedBit(out, f, 39);
  }

  /** Bit `k` of a carried frame is bit `k` of the LSB stream. */
  lemma CarriedBit(out: seq<Pixel>, f: seq<bool>, k: nat)
    requires Carries(out, f) && k < |f|
    ensures LsbStream(out)[k] == f[k]
  {
    assert LsbStream(out)[..|f|][k] == f[k];
  }

  /** A run inside a prefix is the same run of the whole. */
  lemma PrefixSlice(s: seq<bool>, f: seq<bool>, a: nat, b: nat)
    requires |f| <= |s| && s[..|f|] == f && a <= b <= |f|
    ensures s[a..b] == f[a..b]
  {
    assert forall k :: a <= k < b ==> s[k] == s[..|f|][k];
  }

  /** The scan over ones, the pixel that completes the early marker, zeros,
      ones, and the pixel that completes the real one. */
  lemma {:induction false} ScanRuns(p1: seq<Pixel>, q5: Pixel, p2: seq<Pixel>, p3: seq<Pixel>, q13: Pixel)
    requires LsbStream(p1) == Ones15 && LsbStream(p2) == Zeros6 && LsbStream(p3) == Ones15
    requires Lsb(q5.0) && !Lsb(q5.1) && !Lsb(q13.0)
    ensures ScanWithBreak(p1 + ([q5] + (p2 + (p3 + [q13]))), []) == [true] + Marker + Zeros6 + Marker
  {
    var a2 := [true] + Marker;
    var rest := p2 + (p3 + [q13]);
    ScanEarlyMarker(p1, q5);
    ScanAppend([q5], rest, Ones15);
    ScanAppend(p1, [q5] + rest, []);
    assert [] + Ones15 == Ones15;
    ScanToMarker(p2, p3, q13, a2);
  }

  /** Fifteen ones, then a pixel whose red and green LSBs are 1 and 0: the
      marker is read one bit in, and the channel loop leaves the pixel. */
  lemma {:induction false} ScanEarlyMarker(p1: seq<Pixel>, q5: Pixel)
    requires LsbStream(p1) == Ones15
    requires Lsb(q5.0) && !Lsb(q5.1)
    ensures ScanWithBreak(p1, []) == Ones15
    ensures ScanWithBreak([q5], Ones15) == [true] + Marker
  {
    ScanOnes(p1, []);
    AppendEmpty(Ones15);
    var n1 := Ones15 + [true];
    EndsInOne(n1);
    var a2 := n1 + [false];
    assert a2 == [true] + Marker by {
      OnesShift();
      MarkerShape();
      AppendAssoc([true], Ones15, [false]);
    }
    EndsWithMarkerOf([true]);
    assert ScanPixel(q5, Ones15, 0) == ScanPixel(q5, n1, 1);
  }

  /** From there: six zeros, fifteen ones and a zero complete the real marker. */
  lemma {:induction false} ScanToMarker(p2: seq<Pixel>, p3: seq<Pixel>, q13: Pixel, a2: seq<bool>)
    requires LsbStream(p2) == Zeros6 && LsbStream(p3) == Ones15 && !Lsb(q13.0)
    requires a2 == [true] + Marker
    ensures ScanWithBreak(p2 + (p3 + [q13]), a2) == a2 + Zeros6 + Marker
  {
    ScanZeros(p2, a2);
    var a3 := a2 + Zeros6;
    ScanOnes(p3, a3);
    var a4 := a3 + Ones15;
    var a5 := a4 + [false];
    assert a5 == a3 + Marker by {
      MarkerShape();
      AppendAssoc(a3, Ones15, [false]);
    }
    EndsWithMarkerOf(a3);
    assert ScanWithBreak([q13], a4) == a5;
    ScanAppend(p3, [q13], a3);
    ScanAppend(p2, p3 + [q13], a2);
  }

  /** The runs of that frame the scan meets, by position. */
  lemma {:induction false} SpelledParts(f: seq<bool>)
    requires f == [true] + Ones15 + [false, true] + Zeros6 + Marker
    ensures |f| == 40 && f[15] && !f[16] && !f[39]
    ensures f[0..15] == Ones15 && f[18..24] == Zeros6 && f[24..39] == Ones15
    ensures f[1..17] == Marker
  {
    var head := [true] + Ones15 + [false, true] + Zeros6;
    assert |head| == 24 && f == head + Marker;
    assert f[1..17] == Ones15 + [false];
    assert f[24..] == Marker;
    MarkerShape();
    assert f[24..39] == Marker[..15];
    assert f[18..24] == head[18..24];
    assert f[0..15] == head[0..15];
  }

  lemma MarkerShape()
    ensures Marker == Ones15 + [false]
  {
  }

  lemma OnesShift()
    ensures Ones15 + [true] == [true] + Ones15
  {
  }

  /** The code as written hands back a wrong image, and no error, for a
      secret whose dump holds fifteen ones and a zero: the pixel (255, 255, 64)
      hidden in any fourteen-pixel carrier comes back as (255, 255, 0). */
  lemma {:induction false} EarlyMarkerWrongImage(carrier: seq<Pixel>)
    requires |carrier| == 14
    ensures EncodeImage(carrier, [(255, 255, 64)]).Ok?
    ensures DecodeImage(EncodeImage(carrier, [(255, 255, 64)]).value, 1, 1)
         == Ok(Picture(1, 1, [(255, 255, 0)]))
  {
    var out := EncodeImage(carrier, [(255, 255, 64)]).value;
    SpelledScan(out);
    var kept := [true] + Marker + Zeros6;
    AppendHalves(kept, Marker);
    assert DropLast16(ScanWithBreak(out, [])) == kept;
    SpelledPixels();
    FillExact([(255, 255, 0)], 1, 1);
  }

  /** What is kept after dropping the last sixteen bits reads as one pixel,
      its blue byte taken from seven zeros. */
  lemma SpelledPixels()
    ensures Triples([true] + Marker + Zeros6) == Some([(255, 255, 0)])
  {
    var kept := [true] + Marker + Zeros6;
    KeptRuns(kept);
    assert FromBits(seq(8, _ => true)) == 255 by {
      assert Pow2(8) == 256;
      ToBitsOnes(8);
      FromToBits(255, 8);
    }
    FromBitsZeros(kept[16..]);
    assert LeadingPixel(kept) == (255, 255, 0);
    assert |kept| == 23 && Min(24, |kept|) == 23;
    assert Triples(kept[23..]) == Some([]);
    assert [(255, 255, 0)] + [] == [(255, 255, 0)];
  }

  /** The bits the code as written keeps for that secret: two bytes of ones,
      then seven zeros. */
  lemma {:induction false} KeptRuns(kept: seq<bool>)
    requires kept == [true] + Marker + Zeros6
    ensures |kept| == 23 && kept[23..] == []
    ensures kept[..8] == seq(8, _ => true) && kept[8..16] == seq(8, _ => true)
    ensures forall i :: 0 <= i < |kept[16..]| ==> !kept[16..][i]
  {
    MarkerShape();
    AppendAssoc([true], Ones15, [false]);
    OnesShift();
    assert kept == Ones15 + [true, false] + Zeros6;
  }

  /** Corrected image encoding: besides the size check, a secret whose frame
      would complete the marker before its end is refused, since no reader can
      tell where such a frame ends. */
  function EncodeImageUnambiguous(carrier: seq<Pixel>, secret: seq<Pixel>): (r: Result<seq<Pixel>, DesktopError>)
    ensures r == Err(SecretTooLarge) <==> 3 * |carrier| < 24 * |secret| + 16
    ensures r == Err(MarkerInSecret) <==>
              24 * |secret| + 16 <= 3 * |carrier| && !MarkerOnlyAtEnd(ImageFrame(secret))
    ensures r.Err? ==> r.error == SecretTooLarge || r.error == MarkerInSecret
    ensures r.Ok? ==> |r.value| == |carrier| && Carries(r.value, ImageFrame(secret))
    ensures r.Ok? ==> forall i :: 0 <= i < |carrier| ==> LsbOnly(carrier[i], r.value[i])
    ensures r.Ok? ==> forall i :: 8 * |secret| + 6 <= i < |carrier| ==> r.value[i] == carrier[i]
  {
    if 24 * |secret| + 16 <= 3 * |carrier| && !MarkerOnlyAtEnd(ImageFrame(secret)) then Err(MarkerInSecret)
    else EncodeImageChecked(carrier, secret)
  }

  /** Every secret the corrected encoder accepts is read back exactly by the
      decoder that stops at the marker. */
  lemma {:induction false} UnambiguousRoundTrip(carrier: seq<Pixel>, secret: seq<Pixel>, width: nat, height: nat)
    requires EncodeImageUnambiguous(carrier, secret).Ok? && |secret| == width * height
    ensures DecodeImageAtMarker(EncodeImageUnambiguous(carrier, secret).value, width, height)
         == Ok(Picture(width, height, secret))
  {
    DecodeCarriedImageAtMarker(EncodeImageUnambiguous(carrier, secret).value, secret, width, height);
  }

  /** A dark secret that fits is accepted. */
  lemma {:induction false} DarkAccepted(carrier: seq<Pixel>, secret: seq<Pixel>)
    requires Dark(secret) && 24 * |secret| + 16 <= 3 * |carrier|
    ensures EncodeImageUnambiguous(carrier, secret).Ok?
  {
    DarkFrameMarked(secret);
  }

  /** The secret the code as written gets wrong is refused. */
  lemma {:induction false} SpelledRefused(carrier: seq<Pixel>)
    requires |carrier| == 14
    ensures EncodeImageUnambiguous(carrier, [(255, 255, 64)]) == Err(MarkerInSecret)
  {
    var f := ImageFrame([(255, 255, 64)]);
    SpelledFrame();
    SpelledParts(f);
    assert f[..17][1..] == f[1..17];
    assert 1 <= 17 <= |f| - 1 && EndsWithMarker(f[..17]);
    assert !MarkerOnlyAtEnd(f);
  }
}

=== FILE: fullstack.dfy ===
/** The authoritative, length-prefixed codec (StegoShield_fullStack backend):
    `encode_message`/`decode_message` for base64 text and
    `encode_image`/`decode_image` for a secret RGB image. A frame is a 32-bit
    length, then a payload that starts with a type bit (0 text, 1 image). */
module FullStack {
  import opened Binary
  import opened Raster
  import opened Results
  import opened LsbCodec
  import Base64
  import Decimal

  /** The payload's length in 32 binary digits, then the payload. */
  function Frame(payload: seq<bool>): (r: seq<bool>)
    ensures |payload| < Pow2(32) ==>
              |r| == 32 + |payload| && FromBits(r[..32]) == |payload| && r[32..] == payload
  {
    Format(|payload|, 32) + payload
  }

  // ---- Text ----

  /** Type bit 0, then the 8-bit codes of the base64 text. */
  function TextPayload(msg: seq<Byte>): (r: seq<bool>)
    ensures |r| == 1 + 8 * |Base64.Encode(msg)| && !r[0]
    ensures BitsToStr(r[1..]) == Base64.Encode(msg)
  {
    var text := Base64.Encode(msg);
    StrBinaryRoundTrip(text);
    assert ([false] + StrToBinary(text))[1..] == StrToBinary(text);
    [false] + StrToBinary(text)
  }

  /** `encode_message`. */
  function EncodeMessage(img: seq<Pixel>, msg: seq<Byte>): (r: Result<seq<Pixel>, StegoError>)
    ensures r.Err? <==> |Frame(TextPayload(msg))| > 3 * |img|
    ensures r.Err? ==> r.error == TooLarge
    ensures r.Ok? ==> |r.value| == |img| && Carries(r.value, Frame(TextPayload(msg)))
  {
    EmbedData(img, Frame(TextPayload(msg)))
  }

  /** The text frame: a length field of 1 + 8 bits per base64 character, type
      bit 0, then the base64 characters. */
  lemma {:induction false} TextFrameLayout(msg: seq<Byte>)
    requires |TextPayload(msg)| < Pow2(32)
    ensures var f := Frame(TextPayload(msg));
            var text := Base64.Encode(msg);
            && |text| == 4 * ((|msg| + 2) / 3)
            && |f| == 33 + 8 * |text|
            && FromBits(f[..32]) == 1 + 8 * |text|
            && !f[32]
            && BitsToStr(f[33..]) == text
  {
    var text := Base64.Encode(msg);
    var f := Frame(TextPayload(msg));
    assert f[33..] == f[32..][1..];
    assert TextPayload(msg)[1..] == StrToBinary(text);
    StrBinaryRoundTrip(text);
  }

  /** The payload length the first 32 channel LSBs declare. */
  function Declared(img: seq<Pixel>): nat
    requires 32 <= 3 * |img|
  {
    FromBits(LsbStream(img)[..32])
  }

  /** Steps 1 to 3 that `decode_message` and `decode_image` share: read the
      length prefix, then exactly that many payload bits. */
  function ReadPayload(img: seq<Pixel>): (r: Result<seq<bool>, StegoError>)
    ensures r == Err(NotEncoded) <==> 3 * |img| < 32
    ensures r == Err(Incomplete) <==> 32 <= 3 * |img| && 3 * |img| < 32 + Declared(img)
    ensures r.Err? ==> r.error == NotEncoded || r.error == Incomplete
    ensures r.Ok? ==> r.value == LsbStream(img)[32..32 + Declared(img)]
  {
    var head := ExtractBits(img, 32);
    if |head| < 32 then Err(NotEncoded)
    else
      assert head == LsbStream(img)[..32];
      var declared := FromBits(head);
      var payload := ExtractBits(img, 32 + declared)[32..];
      if |payload| < declared then Err(Incomplete) else Ok(payload)
  }

  /** `decode_message`. */
  function DecodeMessage(img: seq<Pixel>): (r: Result<seq<Byte>, StegoError>)
    ensures r == Err(NotEncoded) <==> 3 * |img| < 32
    ensures r == Err(Incomplete) <==> 32 <= 3 * |img| && 3 * |img| < 32 + Declared(img)
    ensures r == Err(NotText) <==>
              32 <= 3 * |img| && 32 + Declared(img) <= 3 * |img|
              && (Declared(img) == 0 || LsbStream(img)[32])
    ensures r.Err? ==> r.error in {NotEncoded, Incomplete, NotText, BadBase64}
  {
    match ReadPayload(img)
    case Err(e) => Err(e)
    case Ok(payload) =>
      if |payload| == 0 || payload[0] then Err(NotText)
      else
        match Base64.Decode(BitsToStr(payload[1..]))
        case None => Err(BadBase64)
        case Some(bytes) => Ok(bytes)
  }

  /** Whatever buffer carries a frame in its first channel LSBs yields that
      frame's payload. */
  lemma {:induction false} ReadFramedPayload(out: seq<Pixel>, payload: seq<bool>)
    requires |payload| < Pow2(32)
    requires Carries(out, Frame(payload))
    ensures ReadPayload(out) == Ok(payload)
  {
    var f := Frame(payload);
    var s := LsbStream(out);
    assert s[..32] == f[..32];
    assert Declared(out) == |payload|;
    assert s[32..32 + |payload|] == f[32..];
  }

  lemma {:induction false} DecodeCarriedMessage(out: seq<Pixel>, msg: seq<Byte>)
    requires |TextPayload(msg)| < Pow2(32)
    requires Carries(out, Frame(TextPayload(msg)))
    ensures DecodeMessage(out) == Ok(msg)
  {
    var text := Base64.Encode(msg);
    ReadFramedPayload(out, TextPayload(msg));
    assert TextPayload(msg)[1..] == StrToBinary(text);
    StrBinaryRoundTrip(text);
    Base64.DecodeEncode(msg);
  }

  /** Decoding an encoded message gives the original whenever the frame fits. */
  lemma {:induction false} MessageRoundTrip(img: seq<Pixel>, msg: seq<Byte>)
    requires |TextPayload(msg)| < Pow2(32)
    requires |Frame(TextPayload(msg))| <= 3 * |img|
    ensures EncodeMessage(img, msg).Ok?
    ensures DecodeMessage(EncodeMessage(img, msg).value) == Ok(msg)
  {
    DecodeCarriedMessage(EncodeMessage(img, msg).value, msg);
  }

  // ---- Image ----

  /** f"{w}x{h}". */
  function Header(w: nat, h: nat): string
  {
    Decimal.Show(w) + "x" + Decimal.Show(h)
  }

  /** Type bit 1, the 16-bit length of the header bits, the header, then 24 bits per pixel. */
  function ImagePayload(secret: Picture): (r: seq<bool>)
    ensures |r| > 0 && r[0]
    ensures var header := StrToBinary(Header(secret.width, secret.height));
            |header| < Pow2(16) ==> |r| == 17 + |header| + 24 * |secret.pixels|
  {
    var header := StrToBinary(Header(secret.width, secret.height));
    [true] + Format(|header|, 16) + header + PixelBits(secret.pixels)
  }

  /** `encode_image`. */
  function EncodeImage(carrier: seq<Pixel>, secret: Picture): (r: Result<seq<Pixel>, StegoError>)
    ensures r.Err? <==> |Frame(ImagePayload(secret))| > 3 * |carrier|
    ensures r.Err? ==> r.error == TooLarge
    ensures r.Ok? ==> |r.value| == |carrier| && Carries(r.value, Frame(ImagePayload(secret)))
  {
    EmbedData(carrier, Frame(ImagePayload(secret)))
  }

  /** The header's only `x` is at index `i`, and the text on either side of
      it is a decimal number. */
  predicate HeaderAt(s: string, i: int)
  {
    Decimal.OnlySeparatorAt(s, 'x', i) && Decimal.Parse(s[..i]).Some? && Decimal.Parse(s[i + 1..]).Some?
  }

  /** The header split at `x` into exactly two decimal numbers, width then
      height; `None` where Python raises. */
  function ParseHeader(s: string): (r: Option<(nat, nat)>)
    ensures r.Some? ==> 'x' in s
    ensures r.Some? <==> exists i :: HeaderAt(s, i)
    ensures forall i :: HeaderAt(s, i) ==>
              r == Some((Decimal.Parse(s[..i]).value, Decimal.Parse(s[i + 1..]).value))
  {
    Decimal.SplitInTwo(s, 'x');
    var parts := Decimal.Split(s, 'x');
    if |parts| != 2 then None
    else
      match (Decimal.Parse(parts[0]), Decimal.Parse(parts[1]))
      case (Some(w), Some(h)) =>
        SplitFindsSeparator(s, 'x');
        assert HeaderAt(s, |parts[0]|);
        Some((w, h))
      case _ => None
  }

  /** With more than one piece there must be a separator. */
  lemma {:induction false} SplitFindsSeparator(s: string, sep: char)
    requires |Decimal.Split(s, sep)| >= 2
    ensures sep in s
  {
    if |s| > 0 && s[0] != sep {
      SplitFindsSeparator(s[1..], sep);
    }
  }

  lemma {:induction false} ParseHeaderShow(w: nat, h: nat)
    ensures ParseHeader(Header(w, h)) == Some((w, h))
  {
    var a, b := Decimal.Show(w), Decimal.Show(h);
    assert 'x' !in a && 'x' !in b;
    assert Header(w, h) == a + ['x'] + b;
    Decimal.SplitJoin(a, b, 'x');
    Decimal.ParseShow(w);
    Decimal.ParseShow(h);
  }

  /** The header is ASCII: digits and 'x'. */
  lemma {:induction false} HeaderAscii(w: nat, h: nat)
    ensures Ascii(Header(w, h))
  {
  }

  /** The number of pixels of a `w` by `h` image. */
  function Area(w: nat, h: nat): nat
  {
    w * h
  }

  /** `count` pixels from consecutive 24-bit groups. */
  function ReadPixels(bits: seq<bool>, count: nat): (r: seq<Pixel>)
    requires |bits| >= 24 * count
    ensures |r| == count
  {
    if count == 0 then [] else [ReadPixel(bits)] + ReadPixels(bits[24..], count - 1)
  }

  /** Reading pixels back from their bits gives the pixels. */
  lemma {:induction false} ReadPixelBits(px: seq<Pixel>, rest: seq<bool>)
    ensures ReadPixels(PixelBits(px) + rest, |px|) == px
  {
    if |px| > 0 {
      var tail := PixelBits(px[1..]) + rest;
      PixelBitsCons(px, rest);
      ReadPixelsCons(px[0], tail, |px| - 1);
      ReadPixelBits(px[1..], rest);
      PixelsCons(px);
    }
  }

  /** One pixel's bits in front read back as that pixel in front. */
  lemma {:induction false} ReadPixelsCons(p: Pixel, tail: seq<bool>, count: nat)
    requires |tail| >= 24 * count
    ensures ReadPixels(PixelByteBits(p) + tail, count + 1) == [p] + ReadPixels(tail, count)
  {
    assert (PixelByteBits(p) + tail)[24..] == tail;
    ReadPixelByteBits(p, tail);
  }

  /** And the bits of the pixels read are the bits they were read from. */
  lemma {:induction false} PixelBitsOfRead(bits: seq<bool>, count: nat)
    requires |bits| >= 24 * count
    ensures PixelBits(ReadPixels(bits, count)) == bits[..24 * count]
  {
    if count > 0 {
      var px := ReadPixels(bits, count);
      PixelBitsOfRead(bits[24..], count - 1);
      assert px[0] == ReadPixel(bits) && px[1..] == ReadPixels(bits[24..], count - 1);
      TakeSplit(bits, 24, 24 * count);
    }
  }

  /** Where the header of an image payload ends: after the type bit, the
      header-length field (cut short by the payload's end) and as many header
      bits as that field declares, again cut short by the payload's end. */
  function HeaderEnd(payload: seq<bool>): (r: nat)
    requires |payload| >= 2
    ensures Min(17, |payload|) <= r <= |payload|
  {
    Min(17 + FromBits(payload[1..Min(17, |payload|)]), |payload|)
  }

  /** The header bits of an image payload. */
  function HeaderField(payload: seq<bool>): seq<bool>
    requires |payload| >= 2
  {
    payload[Min(17, |payload|)..HeaderEnd(payload)]
  }

  /** The pixel bits of an image payload: everything after the header. */
  function PixelField(payload: seq<bool>): seq<bool>
    requires |payload| >= 2
  {
    payload[HeaderEnd(payload)..]
  }

  /** Steps 5 and 6 of `decode_image`, after the type bit: Python's lenient
      slicing of the header-length field and of the header, the header parse,
      and the pixel count check. An empty length field fails to parse. */
  function ParseImagePayload(payload: seq<bool>): (r: Result<Picture, StegoError>)
    requires |payload| >= 1
    ensures r.Ok? ==> WellFormed(r.value)
    ensures r.Err? ==> r.error == CorruptHeader || r.error == MissingPixels
    ensures |payload| == 1 ==> r == Err(CorruptHeader)
  {
    if |payload| == 1 then Err(CorruptHeader)
    else
      match ParseHeader(BitsToStr(HeaderField(payload)))
      case None => Err(CorruptHeader)
      case Some((w, h)) =>
        var count := Area(w, h);
        var pixelBits := PixelField(payload);
        if |pixelBits| < 24 * count then Err(MissingPixels)
        else Ok(Picture(w, h, ReadPixels(pixelBits, count)))
  }

  /** A payload with no length field, or whose header does not parse, is
      reported as a corrupt header. */
  lemma {:induction false} UnparsedHeader(payload: seq<bool>)
    requires |payload| >= 1
    requires |payload| == 1 || ParseHeader(BitsToStr(HeaderField(payload))).None?
    ensures ParseImagePayload(payload) == Err(CorruptHeader)
  {
  }

  /** A header that parses as `(w, h)` with fewer than `24 * w * h` pixel bits
      after it is reported as missing pixels. */
  lemma {:induction false} ShortPixelField(payload: seq<bool>, w: nat, h: nat)
    requires |payload| >= 2 && ParseHeader(BitsToStr(HeaderField(payload))) == Some((w, h))
    requires |PixelField(payload)| < 24 * Area(w, h)
    ensures ParseImagePayload(payload) == Err(MissingPixels)
  {
  }

  /** Otherwise the first `24 * w * h` pixel bits are read as the image. */
  lemma {:induction false} ParsedPayload(payload: seq<bool>, w: nat, h: nat)
    requires |payload| >= 2 && ParseHeader(BitsToStr(HeaderField(payload))) == Some((w, h))
    requires |PixelField(payload)| >= 24 * Area(w, h)
    ensures ParseImagePayload(payload) == Ok(Picture(w, h, ReadPixels(PixelField(payload), Area(w, h))))
  {
  }

  /** `decode_image`. */
  function DecodeImage(img: seq<Pixel>): (r: Result<Picture, StegoError>)
    ensures r.Ok? ==> WellFormed(r.value)
    ensures r == Err(NotEncoded) <==> 3 * |img| < 32
    ensures r == Err(Incomplete) <==> 32 <= 3 * |img| && 3 * |img| < 32 + Declared(img)
    ensures r == Err(NotImage) <==>
              32 <= 3 * |img| && 32 + Declared(img) <= 3 * |img|
              && (Declared(img) == 0 || !LsbStream(img)[32])
    ensures r.Err? ==> r.error in {NotEncoded, Incomplete, NotImage, CorruptHeader, MissingPixels}
  {
    match ReadPayload(img)
    case Err(e) => Err(e)
    case Ok(payload) =>
      if |payload| == 0 || !payload[0] then Err(NotImage)
      else ParseImagePayload(payload)
  }

  /** Past the frame and type checks, image decoding is the payload parse. */
  lemma {:induction false} DecodeImagePayload(img: seq<Pixel>)
    requires ReadPayload(img).Ok?
    requires |ReadPayload(img).value| >= 1 && ReadPayload(img).value[0]
    ensures DecodeImage(img) == ParseImagePayload(ReadPayload(img).value)
  {
  }

  /** `decode_image` reports a corrupt header exactly for a frame whose image
      payload has no length field or a header that does not parse. */
  lemma {:induction false} DecodeCorruptHeader(img: seq<Pixel>)
    requires ReadPayload(img).Ok?
    requires |ReadPayload(img).value| >= 1 && ReadPayload(img).value[0]
    ensures DecodeImage(img) == Err(CorruptHeader) <==>
              |ReadPayload(img).value| == 1
              || ParseHeader(BitsToStr(HeaderField(ReadPayload(img).value))).None?
  {
    var p := ReadPayload(img).value;
    DecodeImagePayload(img);
    if |p| >= 2 {
      match ParseHeader(BitsToStr(HeaderField(p)))
      case None => UnparsedHeader(p);
      case Some((w, h)) =>
        if |PixelField(p)| < 24 * Area(w, h) {
          ShortPixelField(p, w, h);
        } else {
          ParsedPayload(p, w, h);
        }
    }
  }

  /** And it reports missing pixels exactly for a header that parses as
      `(w, h)` followed by fewer than `24 * w * h` pixel bits. */
  lemma {:induction false} DecodeMissingPixels(img: seq<Pixel>, w: nat, h: nat)
    requires ReadPayload(img).Ok?
    requires |ReadPayload(img).value| >= 2 && ReadPayload(img).value[0]
    requires ParseHeader(BitsToStr(HeaderField(ReadPayload(img).value))) == Some((w, h))
    ensures DecodeImage(img) == Err(MissingPixels) <==>
              |PixelField(ReadPayload(img).value)| < 24 * Area(w, h)
  {
    var p := ReadPayload(img).value;
    DecodeImagePayload(img);
    if |PixelField(p)| < 24 * Area(w, h) {
      ShortPixelField(p, w, h);
    } else {
      ParsedPayload(p, w, h);
    }
  }

  lemma {:induction false} ImagePayloadSlices(lengthField: seq<bool>, header: seq<bool>, pixels: seq<bool>)
    requires |lengthField| == 16
    ensures var p := [true] + lengthField + header + pixels;
            && |p| >= 17
            && p[1..17] == lengthField
            && p[17..17 + |header|] == header
            && p[17 + |header|..] == pixels
  {
  }

  /** A payload laid out as `encode_image` lays it out parses into its parts. */
  lemma {:induction false} ParseLaidOut(header: seq<bool>, pixels: seq<bool>, w: nat, h: nat, count: nat)
    requires |header| < Pow2(16)
    requires ParseHeader(BitsToStr(header)) == Some((w, h))
    requires count == w * h && |pixels| >= 24 * count
    ensures ParseImagePayload([true] + Format(|header|, 16) + header + pixels)
            == Ok(Picture(w, h, ReadPixels(pixels, count)))
  {
    var payload := [true] + Format(|header|, 16) + header + pixels;
    LaidOutFields(header, pixels);
    ParsedPayload(payload, w, h);
  }

  /** The header and pixel fields of such a payload are the header and pixels. */
  lemma {:induction false} LaidOutFields(header: seq<bool>, pixels: seq<bool>)
    requires |header| < Pow2(16)
    ensures var payload := [true] + Format(|header|, 16) + header + pixels;
            && |payload| >= 17
            && HeaderField(payload) == header && PixelField(payload) == pixels
  {
    var lengthField := Format(|header|, 16);
    var payload := [true] + lengthField + header + pixels;
    ImagePayloadSlices(lengthField, header, pixels);
    assert Min(17, |payload|) == 17;
    assert FromBits(payload[1..17]) == |header|;
    assert HeaderEnd(payload) == 17 + |header|;
  }

  lemma {:induction false} ParseImagePayloadOf(secret: Picture)
    requires WellFormed(secret)
    requires |StrToBinary(Header(secret.width, secret.height))| < Pow2(16)
    ensures ParseImagePayload(ImagePayload(secret)) == Ok(secret)
  {
    var w, h := secret.width, secret.height;
    var header := StrToBinary(Header(w, h));
    var pixels := PixelBits(secret.pixels);
    HeaderAscii(w, h);
    StrBinaryRoundTrip(Header(w, h));
    ParseHeaderShow(w, h);
    assert ParseHeader(BitsToStr(header)) == Some((w, h));
    ParseLaidOut(header, pixels, w, h, |secret.pixels|);
    ReadPixelBits(secret.pixels, []);
    AppendEmpty(pixels);
  }

  lemma {:induction false} DecodeCarriedImage(out: seq<Pixel>, secret: Picture)
    requires WellFormed(secret)
    requires |StrToBinary(Header(secret.width, secret.height))| < Pow2(16)
    requires |ImagePayload(secret)| < Pow2(32)
    requires Carries(out, Frame(ImagePayload(secret)))
    ensures DecodeImage(out) == Ok(secret)
  {
    ReadFramedPayload(out, ImagePayload(secret));
    ParseImagePayloadOf(secret);
  }

  /** The secret image comes back exactly, pixel for pixel, whenever the frame fits. */
  lemma {:induction false} ImageRoundTrip(carrier: seq<Pixel>, secret: Picture)
    requires WellFormed(secret)
    requires |StrToBinary(Header(secret.width, secret.height))| < Pow2(16)
    requires |ImagePayload(secret)| < Pow2(32)
    requires |Frame(ImagePayload(secret))| <= 3 * |carrier|
    ensures EncodeImage(carrier, secret).Ok?
    ensures DecodeImage(EncodeImage(carrier, secret).value) == Ok(secret)
  {
    DecodeCarriedImage(EncodeImage(carrier, secret).value, secret);
  }

  /** A carrier whose channel LSBs are all 0 (never embedded, or blank) declares
      an empty payload: neither a text nor an image is read from it. */
  lemma {:induction false} BlankCarrierRejected(img: seq<Pixel>)
    requires 32 <= 3 * |img|
    requires forall k :: 0 <= k < 3 * |img| ==> !LsbStream(img)[k]
    ensures DecodeMessage(img) == Err(NotText)
    ensures DecodeImage(img) == Err(NotImage)
  {
    FromBitsZeros(LsbStream(img)[..32]);
  }
}

=== FILE: lsb_codec.dfy ===
/** The bit layer of the length-prefixed codec (StegoShield_fullStack backend):
    `_embed_data`, which writes a frame into the carrier's channel LSBs, and
    `_extract_bits`, which reads channel LSBs back. */
module LsbCodec {
  import opened Binary
  import opened Raster
  import opened Results

  /** The ValueErrors of the length-prefixed codec. */
  datatype StegoError =
    | TooLarge         // the frame needs more than one bit per channel of the carrier
    | NotEncoded       // fewer than 32 channel bits to hold the length prefix
    | Incomplete       // fewer payload bits than the prefix declares
    | NotText          // the type bit is missing or is not 0
    | NotImage         // the type bit is missing or is not 1
    | BadBase64        // the text is not valid base64
    | CorruptHeader    // the image header is not "<width>x<height>"
    | MissingPixels    // fewer than 24 * width * height pixel bits

  /** Number of carrier pixels `_embed_data`'s loop appends for an L-bit frame
      over N pixels: every pixel whose channels receive a bit, plus the pixel on
      which the bit iterator runs dry (when the frame stops short of full capacity). */
  function Visited(frameBits: nat, pixels: nat): nat
  {
    if frameBits >= 3 * pixels then pixels else frameBits / 3 + 1
  }

  /** The pixels the loop of `_embed_data` appends from pixel `i` on: each gets
      the next three frame bits, and the loop breaks on the pixel where
      `next(data_iter)` raises StopIteration. */
  function Walk(img: seq<Pixel>, data: seq<bool>, i: nat): (r: seq<Pixel>)
    requires i <= |img| && 3 * i <= |data|
    ensures |r| == Visited(|data|, |img|) - i
    ensures forall j :: 0 <= j < |r| ==> r[j] == Stamp(img[i + j], data, 3 * (i + j))
    decreases |img| - i
  {
    if i == |img| then []
    else if |data| < 3 * i + 3 then [Stamp(img[i], data, 3 * i)]
    else [Stamp(img[i], data, 3 * i)] + Walk(img, data, i + 1)
  }

  /** `_embed_data` as written: the visited pixels, then the whole original
      image again from its first pixel, cut to the original size. */
  function EmbedData(img: seq<Pixel>, data: seq<bool>): (r: Result<seq<Pixel>, StegoError>)
    ensures r.Err? <==> |data| > 3 * |img|
    ensures r.Err? ==> r.error == TooLarge
    ensures r.Ok? ==> |r.value| == |img|
    ensures r.Ok? ==> Carries(r.value, data)
    ensures r.Ok? ==> forall i :: 0 <= i < Visited(|data|, |img|) ==> LsbOnly(img[i], r.value[i])
    ensures r.Ok? ==> forall i :: Visited(|data|, |img|) <= i < |img| ==>
                        r.value[i] == img[i - Visited(|data|, |img|)]
  {
    if |data| > 3 * |img| then Err(TooLarge)
    else
      var out := (Walk(img, data, 0) + img)[..|img|];
      StampedCarries(img, data, out, Visited(|data|, |img|));
      Ok(out)
  }

  /** `_extract_bits(image, n)`: the channel LSBs in order, stopping as soon as
      `n` have been read; a request of `n < 1` or beyond capacity reads them all. */
  function ExtractBits(img: seq<Pixel>, n: int): (r: seq<bool>)
    ensures |r| == if 1 <= n <= 3 * |img| then n else 3 * |img|
    ensures forall k :: 0 <= k < |r| ==> r[k] == Lsb(Channel(img[k / 3], k % 3))
  {
    var all := LsbStream(img);
    LsbStreamIndex(img);
    if 1 <= n <= |all| then all[..n] else all
  }

  /** The loop of `_extract_bits`, with its early return. */
  method ExtractBitsLoop(img: seq<Pixel>, n: int) returns (bits: seq<bool>)
    ensures bits == ExtractBits(img, n)
  {
    bits := [];
    var p := 0;
    while p < |img|
      invariant 0 <= p <= |img|
      invariant bits == LsbStream(img)[..3 * p]
      invariant !(1 <= n <= 3 * p)
    {
      var c := 0;
      while c < 3
        invariant 0 <= c <= 3
        invariant bits == LsbStream(img)[..3 * p + c]
        invariant !(1 <= n <= 3 * p + c)
      {
        LsbStreamAt(img, p, c);
        assert LsbStream(img)[..3 * p + c + 1] == LsbStream(img)[..3 * p + c] + [Lsb(Channel(img[p], c))];
        bits := bits + [Lsb(Channel(img[p], c))];
        if |bits| == n {
          return;
        }
        c := c + 1;
      }
      p := p + 1;
    }
  }

  /** Reading back as many bits as were embedded gives the frame. */
  lemma {:induction false} ExtractCarried(img: seq<Pixel>, data: seq<bool>)
    requires 1 <= |data| && Carries(img, data)
    ensures ExtractBits(img, |data|) == data
  {
  }

  /** `_extract_bits(_embed_data(img, d), |d|) == d` whenever the frame fits. */
  lemma {:induction false} EmbedExtractRoundTrip(img: seq<Pixel>, data: seq<bool>)
    requires 1 <= |data| <= 3 * |img|
    ensures EmbedData(img, data).Ok?
    ensures ExtractBits(EmbedData(img, data).value, |data|) == data
  {
    ExtractCarried(EmbedData(img, data).value, data);
  }

  /** At exactly full capacity every pixel is visited and nothing is shifted. */
  lemma {:induction false} FullCapacityNoShift(img: seq<Pixel>, data: seq<bool>)
    requires |data| == 3 * |img|
    ensures EmbedData(img, data).Ok?
    ensures forall i :: 0 <= i < |img| ==> EmbedData(img, data).value[i] == Stamp(img[i], data, 3 * i)
  {
    var w := Walk(img, data, 0);
    assert (w + img)[..|img|] == w;
  }

  // ---- The tail shift, and the embedding the comment at the append describes ----

  /** The tail of the as-written embedding is the original image shifted by the
      visited pixels: for three pixels and a 3-bit frame, the last output pixel
      is the FIRST original pixel rather than the third. */
  lemma {:induction false} EmbedShiftsTail()
    ensures var img: seq<Pixel> := [(0, 0, 0), (2, 2, 2), (4, 4, 4)];
            var out := EmbedData(img, [false, false, false]);
            out.Ok? && out.value[2] == (0, 0, 0) && out.value[2] != img[2]
  {
    var img: seq<Pixel> := [(0, 0, 0), (2, 2, 2), (4, 4, 4)];
    var data := [false, false, false];
    assert Visited(|data|, |img|) == 2;
    assert EmbedData(img, data).value[2] == img[0];
  }

  /** `_embed_data` as its comment describes it: the visited pixels, then the
      REST of the original pixels in place. */
  function EmbedInPlace(img: seq<Pixel>, data: seq<bool>): (r: Result<seq<Pixel>, StegoError>)
    ensures r.Err? <==> |data| > 3 * |img|
    ensures r.Err? ==> r.error == TooLarge
    ensures r.Ok? ==> |r.value| == |img|
    ensures r.Ok? ==> Carries(r.value, data)
    ensures r.Ok? ==> forall i :: 0 <= i < |img| ==> LsbOnly(img[i], r.value[i])
    ensures r.Ok? ==> forall i :: Visited(|data|, |img|) <= i < |img| ==> r.value[i] == img[i]
  {
    if |data| > 3 * |img| then Err(TooLarge)
    else
      var out := Walk(img, data, 0) + img[Visited(|data|, |img|)..];
      StampedCarries(img, data, out, Visited(|data|, |img|));
      Ok(out)
  }

  /** The two embeddings differ only beyond the visited pixels, so whatever is
      read from the frame region is the same for both. */
  lemma {:induction false} InPlaceAgreesOnFrame(img: seq<Pixel>, data: seq<bool>)
    requires |data| <= 3 * |img|
    ensures EmbedData(img, data).Ok? && EmbedInPlace(img, data).Ok?
    ensures EmbedData(img, data).value[..Visited(|data|, |img|)]
         == EmbedInPlace(img, data).value[..Visited(|data|, |img|)]
  {
  }
}

=== FILE: raster.dfy ===
/** Decoded RGB pixel buffers and the least-significant-bit view of them that
    all three codec generations share. A buffer is a row-major `seq<Pixel>`;
    its channel LSBs are read R, G, B, pixel after pixel. */
module Raster {
  import opened Binary

  /** One RGB pixel, channels in R, G, B order. */
  type Pixel = (Byte, Byte, Byte)

  function Channel(p: Pixel, c: nat): Byte
    requires c < 3
  {
    if c == 0 then p.0 else if c == 1 then p.1 else p.2
  }

  predicate Lsb(v: Byte)
  {
    v % 2 == 1
  }

  /** `v` with its least significant bit replaced by `bit`. */
  function SetLsb(v: Byte, bit: bool): (r: Byte)
    ensures Lsb(r) == bit
    ensures r / 2 == v / 2
  {
    v - v % 2 + (if bit then 1 else 0)
  }

  /** Channel value `v` after the embedding loops consider frame bit `k`. */
  function Put(v: Byte, data: seq<bool>, k: nat): Byte
  {
    if k < |data| then SetLsb(v, data[k]) else v
  }

  /** The pixel the embedding loops produce from `p` when its R, G, B channels
      carry frame bits `base`, `base + 1`, `base + 2`: each channel whose bit
      exists gets that bit as its LSB, the others are kept. */
  function Stamp(p: Pixel, data: seq<bool>, base: nat): (r: Pixel)
    ensures forall c :: 0 <= c < 3 ==> Channel(r, c) / 2 == Channel(p, c) / 2
    ensures forall c :: 0 <= c < 3 && base + c < |data| ==> Lsb(Channel(r, c)) == data[base + c]
    ensures forall c :: 0 <= c < 3 && |data| <= base + c ==> Channel(r, c) == Channel(p, c)
  {
    (Put(p.0, data, base), Put(p.1, data, base + 1), Put(p.2, data, base + 2))
  }

  /** `q` differs from `p` at most in the least significant bit of each channel. */
  predicate LsbOnly(p: Pixel, q: Pixel)
  {
    forall c :: 0 <= c < 3 ==> Channel(p, c) / 2 == Channel(q, c) / 2
  }

  /** Hence no channel moves by more than one. */
  lemma {:induction false} LsbOnlyWithinOne(p: Pixel, q: Pixel, c: nat)
    requires LsbOnly(p, q) && c < 3
    ensures -1 <= Channel(q, c) - Channel(p, c) <= 1
  {
  }

  /** Every channel LSB of the buffer, R, G, B, pixel after pixel. */
  function LsbStream(img: seq<Pixel>): (r: seq<bool>)
    ensures |r| == 3 * |img|
  {
    if |img| == 0 then []
    else [Lsb(img[0].0), Lsb(img[0].1), Lsb(img[0].2)] + LsbStream(img[1..])
  }

  /** Bit `3 * i + c` of the stream is the LSB of channel `c` of pixel `i`. */
  lemma {:induction false} LsbStreamAt(img: seq<Pixel>, i: nat, c: nat)
    requires i < |img| && c < 3
    ensures LsbStream(img)[3 * i + c] == Lsb(Channel(img[i], c))
    decreases i
  {
    if i > 0 {
      LsbStreamAt(img[1..], i - 1, c);
      assert LsbStream(img)[3 * i + c] == LsbStream(img[1..])[3 * (i - 1) + c];
    }
  }

  /** The same for every bit of the stream. */
  lemma {:induction false} LsbStreamIndex(img: seq<Pixel>)
    ensures forall k :: 0 <= k < 3 * |img| ==> LsbStream(img)[k] == Lsb(Channel(img[k / 3], k % 3))
  {
    forall k | 0 <= k < 3 * |img|
      ensures LsbStream(img)[k] == Lsb(Channel(img[k / 3], k % 3))
    {
      LsbStreamAt(img, k / 3, k % 3);
    }
  }

  lemma {:induction false} LsbStreamAppend(a: seq<Pixel>, b: seq<Pixel>)
    ensures LsbStream(a + b) == LsbStream(a) + LsbStream(b)
    decreases |a|
  {
    if |a| > 0 {
      assert (a + b)[1..] == a[1..] + b;
      LsbStreamAppend(a[1..], b);
    } else {
      assert a + b == b;
    }
  }

  /** `bits` can be read back, in order, from the first channel LSBs of `img`. */
  predicate Carries(img: seq<Pixel>, bits: seq<bool>)
  {
    |bits| <= 3 * |img| && LsbStream(img)[..|bits|] == bits
  }

  /** A buffer whose first `m` pixels are the stamped carrier pixels carries
      every frame that ends within them. */
  lemma {:induction false} StampedCarries(img: seq<Pixel>, data: seq<bool>, out: seq<Pixel>, m: nat)
    requires |data| <= 3 * m && m <= |out|
    requires forall i :: 0 <= i < m ==> i < |img| && out[i] == Stamp(img[i], data, 3 * i)
    ensures Carries(out, data)
  {
    var s := LsbStream(out);
    forall k | 0 <= k < |data|
      ensures s[k] == data[k]
    {
      var i, c := k / 3, k % 3;
      assert 3 * i + c == k && 0 <= c < 3;
      assert i < m && i < |out|;
      var o := out[i];
      assert i < |img|;
      assert o == Stamp(img[i], data, 3 * i);
      LsbStreamAt(out, i, c);
    }
  }

  /** A secret image: its size and its pixels, row-major. */
  datatype Picture = Picture(width: nat, height: nat, pixels: seq<Pixel>)

  /** Exactly width * height pixels, as every image the imaging library hands over. */
  predicate WellFormed(p: Picture)
  {
    |p.pixels| == p.width * p.height
  }

  /** The pixel dump: each pixel's red, green and blue values in eight binary
      digits each, pixel after pixel. */
  function PixelBits(px: seq<Pixel>): (r: seq<bool>)
    ensures |r| == 24 * |px|
  {
    if |px| == 0 then [] else PixelByteBits(px[0]) + PixelBits(px[1..])
  }

  /** A non-empty pixel run is its first pixel followed by the others. */
  lemma PixelsCons(px: seq<Pixel>)
    requires |px| > 0
    ensures [px[0]] + px[1..] == px
  {
  }

  /** The dump of a non-empty pixel run, with anything after it, opens with
      its first pixel's bits. */
  lemma {:induction false} PixelBitsCons(px: seq<Pixel>, rest: seq<bool>)
    requires |px| > 0
    ensures PixelBits(px) + rest == PixelByteBits(px[0]) + (PixelBits(px[1..]) + rest)
  {
    var a, b := PixelByteBits(px[0]), PixelBits(px[1..]);
    assert PixelBits(px) == a + b;
    AppendAssoc(a, b, rest);
  }

  /** `f'{r:08b}{g:08b}{b:08b}'` for one pixel. */
  function PixelByteBits(p: Pixel): (r: seq<bool>)
    ensures |r| == 24
  {
    assert Pow2(8) == 256;
    Format(p.0, 8) + Format(p.1, 8) + Format(p.2, 8)
  }

  /** The pixel whose three bytes open `bits`: eight bits each for red, green
      and blue, read as binary numbers. */
  function ReadPixel(bits: seq<bool>): (p: Pixel)
    requires |bits| >= 24
    ensures PixelByteBits(p) == bits[..24]
  {
    assert Pow2(8) == 256;
    var p: Pixel := (FromBits(bits[..8]), FromBits(bits[8..16]), FromBits(bits[16..24]));
    FormatFromBits8(bits[..8]);
    FormatFromBits8(bits[8..16]);
    FormatFromBits8(bits[16..24]);
    assert bits[..24] == bits[..8] + bits[8..16] + bits[16..24];
    p
  }

  /** A pixel's bits read back as that pixel, whatever follows them. */
  lemma {:induction false} ReadPixelByteBits(p: Pixel, tail: seq<bool>)
    ensures ReadPixel(PixelByteBits(p) + tail) == p
  {
    assert Pow2(8) == 256;
    var bits := PixelByteBits(p) + tail;
    assert bits[..8] == Format(p.0, 8) && bits[8..16] == Format(p.1, 8) && bits[16..24] == Format(p.2, 8);
  }

  lemma {:induction false} PixelBitsAppend(a: seq<Pixel>, b: seq<Pixel>)
    ensures PixelBits(a + b) == PixelBits(a) + PixelBits(b)
  {
    if |a| > 0 {
      assert (a + b)[1..] == a[1..] + b;
      PixelBitsAppend(a[1..], b);
    } else {
      assert a + b == b;
    }
  }

  /** Every channel is below 128. */
  predicate Dark(px: seq<Pixel>)
  {
    forall i, c :: 0 <= i < |px| && 0 <= c < 3 ==> Channel(px[i], c) < 128
  }

  lemma {:induction false} DarkHighBitsClear(px: seq<Pixel>)
    requires Dark(px)
    ensures HighBitsClear(PixelBits(px))
  {
    if |px| > 0 {
      assert Channel(px[0], 0) < 128 && Channel(px[0], 1) < 128 && Channel(px[0], 2) < 128;
      Format8Low(px[0].0);
      Format8Low(px[0].1);
      Format8Low(px[0].2);
      DarkHighBitsClear(px[1..]);
      var r, g, b := Format(px[0].0, 8), Format(px[0].1, 8), Format(px[0].2, 8);
      HighBitsClearAppend(r, g);
      HighBitsClearAppend(r + g, b);
      HighBitsClearAppend(r + g + b, PixelBits(px[1..]));
    }
  }
}

=== FILE: results.dfy ===
/** Outcome types shared by the codecs: an optional value, and either a value or
    the error the original code raises instead of returning. */
module Results {

  datatype Option<+T> = None | Some(value: T)

  datatype Result<+T, +E> = Ok(value: T) | Err(error: E)

  function Min(a: int, b: int): int
  {
    if a < b then a else b
  }
}

=== FILE: sentinel.dfy ===
/** The framing both legacy codecs (the desktop tool and the first web app)
    share: the secret's bits are followed by a fixed 16-bit end marker, written
    into the channel LSBs of the first pixels, and the reader scans the LSB
    stream bit by bit until the last sixteen bits it has read are the marker. */
module Sentinel {
  import opened Binary
  import opened Raster
  import opened Results

  /** The end marker: fifteen ones and a zero. */
  const Marker: seq<bool> := [true, true, true, true, true, true, true, true,
                              true, true, true, true, true, true, true, false]

  /** The marker is the two bytes 255 and 254. */
  lemma MarkerBytes()
    ensures Format(255, 8) + Format(254, 8) == Marker
  {
    OnesByte();
    OnesThenZeroByte();
    assert Marker == seq(8, _ => true) + (seq(7, _ => true) + [false]);
  }

  /** 255 is eight ones. */
  lemma OnesByte()
    ensures Format(255, 8) == seq(8, _ => true)
  {
    assert Pow2(8) - 1 == 255;
    ToBitsOnes(8);
  }

  /** 254 is seven ones and a zero. */
  lemma OnesThenZeroByte()
    ensures Format(254, 8) == seq(7, _ => true) + [false]
  {
    assert Pow2(7) - 1 == 127;
    ToBitsOnes(7);
    assert ToBits(254, 8) == ToBits(127, 7) + [false];
  }

  /** 2^k - 1 is k ones. */
  lemma {:induction false} ToBitsOnes(k: nat)
    ensures ToBits(Pow2(k) - 1, k) == seq(k, _ => true)
  {
    if k > 0 {
      assert (Pow2(k) - 1) / 2 == Pow2(k - 1) - 1;
      ToBitsOnes(k - 1);
    }
  }

  /** The last sixteen bits read so far are the marker. */
  predicate EndsWithMarker(bits: seq<bool>)
  {
    |bits| >= 16 && bits[|bits| - 16..] == Marker
  }

  /** The legacy embedding loop from pixel `i` on: for every group of three
      frame bits starting at `3 * i`, the next pixel of the iterator is stamped;
      once the frame is written the remaining pixels are copied unchanged.
      `None` where the iterator runs dry before the frame is written. */
  function Embed(img: seq<Pixel>, bits: seq<bool>, i: nat): (r: Option<seq<Pixel>>)
    requires i <= |img|
    ensures r.Some? <==> |bits| <= 3 * |img|
    ensures r.Some? ==> |r.value| == |img| - i
    ensures r.Some? ==> forall j :: 0 <= j < |r.value| && 3 * (i + j) < |bits| ==>
      r.value[j] == Stamp(img[i + j], bits, 3 * (i + j))
    ensures r.Some? ==> forall j :: 0 <= j < |r.value| && |bits| <= 3 * (i + j) ==>
      r.value[j] == img[i + j]
    decreases |img| - i
  {
    if |bits| <= 3 * i then Some(img[i..])
    else if i == |img| then None
    else
      match Embed(img, bits, i + 1)
      case None => None
      case Some(rest) => Some([Stamp(img[i], bits, 3 * i)] + rest)
  }

  /** The whole legacy embedding: only the first ceil(|bits| / 3) pixels are
      touched, and only in their LSBs; the frame can be read back from the
      front of the LSB stream. */
  function EmbedFrame(img: seq<Pixel>, bits: seq<bool>): (r: Option<seq<Pixel>>)
    ensures r.Some? <==> |bits| <= 3 * |img|
    ensures r.Some? ==> |r.value| == |img| && Carries(r.value, bits)
    ensures r.Some? ==> forall i :: 0 <= i < |img| ==> LsbOnly(img[i], r.value[i])
    ensures r.Some? ==> forall i :: (|bits| + 2) / 3 <= i < |img| ==> r.value[i] == img[i]
  {
    var r := Embed(img, bits, 0);
    if r.Some? then
      var out := r.value;
      assert forall i :: 0 <= i < |img| ==> LsbOnly(img[i], out[i]) by {
        forall i | 0 <= i < |img|
          ensures LsbOnly(img[i], out[i])
        {
          if 3 * i < |bits| {
            assert out[i] == Stamp(img[i], bits, 3 * i);
          }
        }
      }
      StampedCarries(img, bits, out, (|bits| + 2) / 3);
      r
    else
      r
  }

  /** The first prefix length `>= n` at which the marker has just been read,
      if any: the reader's bit-by-bit scan of the LSB stream. */
  function FindMarker(bits: seq<bool>, n: nat): (r: Option<nat>)
    ensures r.Some? ==> n <= r.value <= |bits| && EndsWithMarker(bits[..r.value])
    ensures r.Some? ==> forall k :: n <= k < r.value ==> !EndsWithMarker(bits[..k])
    ensures r.None? ==> forall k :: n <= k <= |bits| ==> !EndsWithMarker(bits[..k])
    decreases |bits| + 1 - n
  {
    if n > |bits| then None
    else if EndsWithMarker(bits[..n]) then Some(n)
    else FindMarker(bits, n + 1)
  }

  /** The scan starts after the first bit has been appended. */
  function FirstMarker(bits: seq<bool>): Option<nat>
  {
    FindMarker(bits, 1)
  }

  /** The minimality contract of the scan determines its answer. */
  lemma {:induction false} FirstMarkerIs(bits: seq<bool>, n: nat)
    requires 1 <= n <= |bits| && EndsWithMarker(bits[..n]) && NoMarkerUpTo(bits, n - 1)
    ensures FirstMarker(bits) == Some(n)
  {
  }

  /** Bits followed by the marker end with it. */
  lemma EndsWithMarkerOf(bits: seq<bool>)
    ensures EndsWithMarker(bits + Marker)
  {
    assert (bits + Marker)[|bits|..] == Marker;
  }

  /** No marker has been read among the first `m` bits. */
  predicate NoMarkerUpTo(bits: seq<bool>, m: nat)
    requires m <= |bits|
  {
    forall k :: 1 <= k <= m ==> !EndsWithMarker(bits[..k])
  }

  /** One more bit read: either the scan ends there, or no marker has been read yet. */
  lemma {:induction false} ScanStep(bits: seq<bool>, m: nat)
    requires m < |bits| && NoMarkerUpTo(bits, m)
    ensures EndsWithMarker(bits[..m + 1]) ==> FirstMarker(bits) == Some(m + 1)
    ensures !EndsWithMarker(bits[..m + 1]) ==> NoMarkerUpTo(bits, m + 1)
  {
    if EndsWithMarker(bits[..m + 1]) {
      FirstMarkerIs(bits, m + 1);
    }
  }

  /** A scan that read the whole stream without meeting the marker. */
  lemma {:induction false} NoMarkerAnywhere(bits: seq<bool>)
    requires NoMarkerUpTo(bits, |bits|)
    ensures FirstMarker(bits).None?
  {
  }

  /** Appending the next channel LSB extends the prefix of the stream read so far. */
  lemma {:induction false} StreamStep(img: seq<Pixel>, p: nat, c: nat)
    requires p < |img| && c < 3
    ensures 3 * p + c < |LsbStream(img)|
    ensures LsbStream(img)[..3 * p + c] + [Lsb(Channel(img[p], c))] == LsbStream(img)[..3 * p + c + 1]
  {
    var s := LsbStream(img);
    LsbStreamAt(img, p, c);
  }

  /** The reader's nested pixel / channel loop: one LSB is appended at a time
      and the scan stops as soon as the marker has been read. */
  method ScanForMarker(img: seq<Pixel>) returns (bits: seq<bool>, found: bool)
    ensures found <==> FirstMarker(LsbStream(img)).Some?
    ensures found ==> FirstMarker(LsbStream(img)) == Some(|bits|)
    ensures found ==> bits == LsbStream(img)[..|bits|]
    ensures !found ==> bits == LsbStream(img)
  {
    ghost var s := LsbStream(img);
    bits, found := [], false;
    var p := 0;
    while p < |img|
      invariant 0 <= p <= |img|
      invariant bits == s[..3 * p]
      invariant NoMarkerUpTo(s, 3 * p)
    {
      var c := 0;
      while c < 3
        invariant 0 <= c <= 3
        invariant 3 * p + c <= |s|
        invariant bits == s[..3 * p + c]
        invariant NoMarkerUpTo(s, 3 * p + c)
      {
        StreamStep(img, p, c);
        bits := bits + [Lsb(Channel(img[p], c))];
        ScanStep(s, 3 * p + c);
        if EndsWithMarker(bits) {
          found := true;
          return;
        }
        c := c + 1;
      }
      p := p + 1;
    }
    assert bits == s;
    NoMarkerAnywhere(s);
  }

  /** The characters before the marker: the 8-bit groups starting below
      `limit`, each read as a binary number and taken as a character code;
      every group is a full eight bits. */
  function GroupChars(bits: seq<bool>, limit: nat): (r: string)
    requires limit + 8 <= |bits|
    ensures |r| == (limit + 7) / 8
    ensures Latin1(r)
    decreases limit
  {
    var c := FromBits(bits[..8]) as char;
    if limit == 0 then []
    else if limit <= 8 then [c]
    else [c] + GroupChars(bits[8..], limit - 8)
  }

  /** Character `i` of the groups is the byte in bits 8i to 8i + 8. */
  lemma {:induction false} GroupCharsAt(bits: seq<bool>, limit: nat, i: nat)
    requires limit + 8 <= |bits| && i < (limit + 7) / 8
    ensures 8 * i + 8 <= |bits|
    ensures GroupChars(bits, limit)[i] as int == FromBits(bits[8 * i..8 * i + 8])
    decreases i
  {
    if i > 0 {
      var k := 8 * (i - 1);
      assert limit > 8 && k + 8 == 8 * i;
      assert GroupChars(bits, limit)[i] == GroupChars(bits[8..], limit - 8)[i - 1];
      GroupCharsAt(bits[8..], limit - 8, i - 1);
      SliceOfDrop(bits, 8, k, k + 8);
    } else {
      assert bits[0..8] == bits[..8];
    }
  }

  /** Read over a whole number of bytes followed by anything, the groups are
      exactly the characters those bytes encode. */
  lemma {:induction false} GroupCharsOfText(text: seq<bool>, tail: seq<bool>)
    requires |text| % 8 == 0 && |tail| >= 8
    ensures GroupChars(text + tail, |text|) == BitsToStr(text)
    decreases |text|
  {
    if |text| > 0 {
      var s := text + tail;
      assert s[..8] == text[..8];
      assert s[8..] == text[8..] + tail;
      GroupCharsOfText(text[8..], tail);
      if |text| == 8 {
        assert text[8..] == [];
      }
    }
  }

  /** The marker is found right after a frame, and nowhere earlier. */
  predicate MarkerOnlyAtEnd(frame: seq<bool>)
  {
    EndsWithMarker(frame) && NoMarkerUpTo(frame, |frame| - 1)
  }

  /** Whether a marker has been read depends only on the bits read so far. */
  lemma {:induction false} NoMarkerShared(f: seq<bool>, g: seq<bool>, m: nat)
    requires m <= |f| && m <= |g| && f[..m] == g[..m] && NoMarkerUpTo(f, m)
    ensures NoMarkerUpTo(g, m)
  {
    forall k | 1 <= k <= m
      ensures g[..k] == f[..k]
    {
      assert g[..k] == g[..m][..k];
    }
  }

  /** A window of sixteen bits lying within `text` holds the first bit of
      some byte of it, which is clear; the marker has none. */
  lemma {:induction false} WindowInText(text: seq<bool>, s: seq<bool>, n: nat)
    requires HighBitsClear(text)
    requires 16 <= n <= |text| <= |s| && s[..|text|] == text
    ensures s[n - 16..n] != Marker
  {
    var lo := n - 16;
    var q := lo + (8 - lo % 8) % 8;
    assert q % 8 == 0 && lo <= q <= lo + 7;
    assert s[q] == text[q] && !text[q];
    assert s[n - 16..n][q - lo] == s[q];
  }

  /** A window ending inside the marker ends on one of its ones. */
  lemma {:induction false} WindowInMarker(text: seq<bool>, s: seq<bool>, n: nat)
    requires |text| < n < |text| + 16 && n >= 16 && |text| + 16 <= |s|
    requires s[..|text| + 16] == text + Marker
    ensures s[n - 16..n] != Marker
  {
    assert s[n - 1] == Marker[n - 1 - |text|];
    assert s[n - 16..n][15] == s[n - 1];
  }

  /** Text whose every byte is below 128 never contains the marker, nor does
      it together with a proper prefix of it. */
  lemma {:induction false} NoEarlyMarker(text: seq<bool>)
    requires HighBitsClear(text)
    ensures MarkerOnlyAtEnd(text + Marker)
  {
    var f := text + Marker;
    assert f[|f| - 16..] == Marker;
    forall k | 1 <= k <= |f| - 1
      ensures !EndsWithMarker(f[..k])
    {
      if k >= 16 {
        assert f[..k][k - 16..] == f[k - 16..k];
        if k <= |text| {
          WindowInText(text, f, k);
        } else {
          WindowInMarker(text, f, k);
        }
      }
    }
  }

  /** A buffer carrying such a frame is read back exactly up to its marker. */
  lemma {:induction false} FindFrame(img: seq<Pixel>, frame: seq<bool>)
    requires Carries(img, frame) && MarkerOnlyAtEnd(frame)
    ensures FirstMarker(LsbStream(img)) == Some(|frame|)
    ensures NoMarkerUpTo(LsbStream(img), |frame| - 1)
  {
    var s := LsbStream(img);
    assert s[..|frame|] == frame;
    assert s[..|frame| - 1] == frame[..|frame| - 1];
    NoMarkerShared(frame, s, |frame| - 1);
    FirstMarkerIs(s, |frame|);
  }

  /** A buffer carrying text and the marker is read back as that text, when
      no byte of it has its high bit set. */
  lemma {:induction false} ReadText(img: seq<Pixel>, text: seq<bool>)
    requires HighBitsClear(text) && Carries(img, text + Marker)
    ensures FirstMarker(LsbStream(img)) == Some(|text| + 16)
    ensures GroupChars(LsbStream(img)[..|text| + 16], |text|) == BitsToStr(text)
  {
    NoEarlyMarker(text);
    ReadMarkedText(img, text);
  }

  /** The same for any whole number of bytes in which no marker is read
      before the one that follows them. */
  lemma {:induction false} ReadMarkedText(img: seq<Pixel>, text: seq<bool>)
    requires |text| % 8 == 0 && MarkerOnlyAtEnd(text + Marker) && Carries(img, text + Marker)
    ensures FirstMarker(LsbStream(img)) == Some(|text| + 16)
    ensures GroupChars(LsbStream(img)[..|text| + 16], |text|) == BitsToStr(text)
  {
    FindFrame(img, text + Marker);
    assert LsbStream(img)[..|text| + 16] == text + Marker;
    GroupCharsOfText(text, Marker);
  }

  /** A buffer carrying a Latin-1 string's codes and the marker, with no
      marker read earlier, is read back as that string. */
  lemma {:induction false} ReadMarkedString(img: seq<Pixel>, msg: string)
    requires Latin1(msg)
    requires MarkerOnlyAtEnd(StrToBinary(msg) + Marker) && Carries(img, StrToBinary(msg) + Marker)
    ensures 8 * |msg| + 16 <= |LsbStream(img)|
    ensures FirstMarker(LsbStream(img)) == Some(8 * |msg| + 16)
    ensures GroupChars(LsbStream(img)[..8 * |msg| + 16], 8 * |msg|) == msg
  {
    var text := StrToBinary(msg);
    assert |text| == 8 * |msg|;
    EightDivides(|msg|);
    ReadMarkedText(img, text);
    StrBinaryRoundTrip(msg);
  }
}

=== FILE: webapp.dfy ===
/** The first web app's codec: the 8-bit character codes of a text message,
    then the end marker, in the channel LSBs of the first pixels; read back
    as the characters before the first marker. No base64, no length prefix. */
module Webapp {
  import opened Binary
  import opened Raster
  import opened Results
  import opened Sentinel

  /** The bits a message is written as: its character codes, then the marker. */
  function MessageFrame(msg: string): (r: seq<bool>)
    ensures EndsWithMarker(r)
    ensures r[..|r| - 16] == StrToBinary(msg)
  {
    var text := StrToBinary(msg);
    EndsWithMarkerOf(text);
    assert (text + Marker)[..|text|] == text;
    text + Marker
  }

  /** `encode_message` on the image's pixels; `None` where `next(data)` raises
      StopIteration because the frame needs more pixels than the image has. */
  function EncodeMessage(img: seq<Pixel>, msg: string): (r: Option<seq<Pixel>>)
    ensures r.Some? <==> |MessageFrame(msg)| <= 3 * |img|
    ensures r.Some? ==> |r.value| == |img| && Carries(r.value, MessageFrame(msg))
    ensures r.Some? ==> forall i :: 0 <= i < |img| ==> LsbOnly(img[i], r.value[i])
    ensures r.Some? ==> forall i :: (|MessageFrame(msg)| + 2) / 3 <= i < |img| ==> r.value[i] == img[i]
  {
    EmbedFrame(img, MessageFrame(msg))
  }

  /** `decode_message`: the 8-bit groups read before the first marker, or the
      empty string when the whole image holds none. */
  function DecodeMessage(img: seq<Pixel>): (r: string)
    ensures FirstMarker(LsbStream(img)).None? ==> r == []
    ensures Latin1(r)
  {
    var bits := LsbStream(img);
    match FirstMarker(bits)
    case None => []
    case Some(n) => GroupChars(bits[..n], n - 16)
  }

  /** With the marker read after `n` bits, the answer has one character per
      whole byte before the marker, and character `i` is the byte in LSBs
      8i to 8i + 8. */
  lemma {:induction false} DecodedChars(img: seq<Pixel>, n: nat, i: nat)
    requires FirstMarker(LsbStream(img)) == Some(n)
    ensures |DecodeMessage(img)| == (n - 9) / 8
    ensures i < |DecodeMessage(img)| ==>
              8 * i + 8 <= n - 16 + 7 && DecodeMessage(img)[i] as int == FromBits(LsbStream(img)[8 * i..8 * i + 8])
  {
    var s := LsbStream(img);
    DecodeAt(img, n);
    if i < |DecodeMessage(img)| {
      GroupCharsAt(s[..n], n - 16, i);
      SliceOfTake(s, n, 8 * i, 8 * i + 8);
    }
  }

  /** The empty string comes back both from an image without a marker and
      from one whose marker is read at once (an empty message): the two
      cannot be told apart. */
  lemma {:induction false} EmptyAnswer(img: seq<Pixel>)
    ensures DecodeMessage(img) == [] <==>
              FirstMarker(LsbStream(img)).None? || FirstMarker(LsbStream(img)) == Some(16)
  {
  }

  /** A buffer carrying a Latin-1 message whose own bits never complete the
      marker reads back as that message. */
  lemma {:induction false} DecodeCarriedMessage(out: seq<Pixel>, msg: string)
    requires Latin1(msg) && MarkerOnlyAtEnd(MessageFrame(msg))
    requires Carries(out, MessageFrame(msg))
    ensures DecodeMessage(out) == msg
  {
    ReadMarkedString(out, msg);
    DecodeAt(out, 8 * |msg| + 16);
  }

  /** Where the marker is read the answer is the groups before it. */
  lemma {:induction false} DecodeAt(img: seq<Pixel>, n: nat)
    requires FirstMarker(LsbStream(img)) == Some(n)
    ensures n >= 16 && DecodeMessage(img) == GroupChars(LsbStream(img)[..n], n - 16)
  {
  }

  /** ASCII text never completes the marker early. */
  lemma {:induction false} AsciiFrameMarked(msg: string)
    requires Ascii(msg)
    ensures Latin1(msg) && MarkerOnlyAtEnd(MessageFrame(msg))
  {
    AsciiHighBitsClear(msg);
    NoEarlyMarker(StrToBinary(msg));
  }

  /** Decoding an encoded ASCII message gives it back whenever it fits. */
  lemma {:induction false} MessageRoundTrip(img: seq<Pixel>, msg: string)
    requires Ascii(msg) && |MessageFrame(msg)| <= 3 * |img|
    ensures EncodeMessage(img, msg).Some?
    ensures DecodeMessage(EncodeMessage(img, msg).value) == msg
  {
    AsciiFrameMarked(msg);
    DecodeCarriedMessage(EncodeMessage(img, msg).value, msg);
  }

  /** A message opening with the characters U+00FF U+00FE holds the marker in
      its own first sixteen bits, so it reads back as the empty string. */
  lemma {:induction false} MarkerInMessage(img: seq<Pixel>, msg: string)
    requires |msg| >= 2 && msg[0] as int == 255 && msg[1] as int == 254
    requires EncodeMessage(img, msg).Some?
    ensures DecodeMessage(EncodeMessage(img, msg).value) == []
  {
    var out := EncodeMessage(img, msg).value;
    var s := LsbStream(out);
    OpensWithMarker(msg);
    assert s[..16] == MessageFrame(msg)[..16];
    FirstMarkerIs(s, 16);
    DecodeAt(out, 16);
  }

  /** The codes 255 and 254 are eight bits each and together spell the marker. */
  lemma {:induction false} OpensWithMarker(msg: string)
    requires |msg| >= 2 && msg[0] as int == 255 && msg[1] as int == 254
    ensures |MessageFrame(msg)| >= 16 && MessageFrame(msg)[..16] == Marker
  {
    var f0, f1 := Format(255, 8), Format(254, 8);
    var rest := StrToBinary(msg[2..]) + Marker;
    MarkerBytes();
    assert msg[1..][1..] == msg[2..];
    assert StrToBinary(msg) == f0 + (f1 + StrToBinary(msg[2..]));
    AppendAssoc(f0, f1 + StrToBinary(msg[2..]), Marker);
    AppendAssoc(f1, StrToBinary(msg[2..]), Marker);
    AppendAssoc(f0, f1, rest);
    assert MessageFrame(msg) == Marker + rest;
  }
}
